=== FILE: README.md ===
# Delivery quotation for physical stores, in Dafny

This project models the delivery-quotation pipeline of the physical-store
service: the request `GET stores/cep/:cep` answered by
`StoresService.findByCep`. It takes a Brazilian postal code (CEP) and
returns, for every store of that postal code's state whose driving distance
could be computed:

- the distance;
- the store's delivery options;
- a map pin.

Delivery follows one of two regimes:

- A point-of-sale store (`PDV`) within 50 km offers one flat-price
  motorcycle-courier option.
- A regular store (`LOJA`) offers parcel-carrier options. These are quoted
  by the Melhor Envio API, normalised to the Correios Sedex and PAC tiers,
  and replaced by a fixed default pair when quoting throws.

The model also covers the `Store` document schema that the pipeline reads:

- the postal-code setter and getter;
- field casting, defaults and validators;
- the pre-save hook.

Modules, one per file:

- `Wrappers` (`wrappers.dfy`) holds `Option`, `Result`, and `MapOrThrow`, which is `Array.map` with a callback that may throw.
- `Text` (`text.dfy`) holds the string primitives the source gets from JavaScript:
  - `replace(/\D/g, '')`;
  - ASCII `toLowerCase`/`toUpperCase`;
  - `includes`;
  - `trim`;
  - `Number.prototype.toFixed` for one and two decimals.

  Rendered numbers are specified by `ShowsAmount`: the digits of the text, read as a numeral, give the magnitude, and a minus sign appears exactly for negative values.
- `DeliveryPolicy` (`delivery_policy.dfy`) holds `DELIVERY_CONSTANTS`.
- `StoreEntity` (`store_entity.dfy`) holds the Mongoose schema of `Store`.
- `MelhorEnvio` (`melhor_envio.dfy`) holds the carrier client `MelhorEnvioService`.
- `ShippingOptions` (`shipping_options.dfy`) holds the quote side of `StoresService`:
  - `buildPdvDeliveryOption`;
  - `getShippingOptions`;
  - `getDefaultShippingOptions`.
- `StoresService` (`stores_service.dfy`) holds `findByCep` and its per-store steps.

Units and representations:

- Prices are integer cents and lead times are whole days.
- Distances are whole metres; latitude and longitude are `real`.
- JavaScript's `Number(x) || 0` is modelled with `Numeric` (a number, or NaN).

The outside calls are parameters, as pure functions of their arguments:

- the ViaCEP address lookup: postal code to state, or failure;
- the stores collection: its documents, or failure;
- the Google distance matrix: origin and destination to an element, or failure;
- the Melhor Envio quote endpoint: the two cleaned postal codes to a reply or an axios error with an optional HTTP status.

Three behaviours of the code differ from what a reader of the service alone would expect; the model follows the code:

- Carrier failures other than 401 do not produce the default pair. Two paths in `MelhorEnvioService` give an empty quote list: the client's own `Array.isArray` branch, and its `catch` through `handleError`.
  - The `Array.isArray` branch (`melhor-envio.service.ts:55-61`) returns `[]` for a non-array body.
  - `handleError` (`melhor-envio.service.ts:87-113`) receives every error thrown inside the `try`: the `Error('CEP inválido')` the client throws itself for a postal code without eight digits (`melhor-envio.service.ts:20-22`), an axios timeout, a network error, a non-401 HTTP status, and the TypeError a `null` array element raises. All of these become `[]`. The service then filters that list to no option at all.
  - The default pair appears only when the client rethrows a 401, or when a quote's `name` is not a string (a TypeError inside the service's `map`).
  - The service's own "not an array" branch (`stores.service.ts:299-302`) is unreachable.
  - `TimedOutCarrierCase` and `RejectedTokenCase` state both outcomes.
- `offset` is always 0; `limit` and `total` are the result count.
- Stores are read as documents, so `store.postalCode` goes through the schema getter. The distance matrix and the carrier therefore receive `DDDDD-DDD`, and the response shows that form. The carrier client strips the hyphen again (`CarrierSeesStoredPostalCode`).

## Model

| member | source | states |
|---|---|---|
| DeliveryPolicy.PdvMaxRadiusMeters | src/common/constants/delivery.constants.ts:2-6 | the courier radius is 50 km, i.e. 50 000 m |
| DeliveryPolicy.TierDescriptionsTagged | src/common/constants/delivery.constants.ts:8-19 | the Sedex description mentions "Sedex", the PAC description mentions "PAC", and the two product codes are distinct and non-empty, so the default pair survives the service's filter |
| Wrappers.MapOrThrow | src/stores/stores.service.ts:304-329 | `map` with a throwing callback fails exactly when some element throws, with the first thrower's error; otherwise it gives every result in order |
| Text.StripNonDigits | src/stores/stores.service.ts:181-183 | `replace(/\D/g, '')` yields only digits and is no longer than its input |
| Text.StripNonDigitsCounts | src/common/apis/services/melhor-envio.service.ts:79-81 | every digit keeps its number of occurrences and every other character disappears |
| Text.StripNonDigitsFixesDigits | src/common/apis/services/melhor-envio.service.ts:79-81 | cleaning leaves a text unchanged exactly when it is all digits |
| Text.StripNonDigitsAppend | src/stores/stores.service.ts:181-183 | cleaning distributes over concatenation |
| Text.StripNonDigitsIdempotent | src/common/apis/services/melhor-envio.service.ts:79-81 | cleaning twice is cleaning once, so the client re-cleaning the service's already-clean postal code changes nothing |
| Text.ContainsIffOccurrence | src/stores/stores.service.ts:309-310 | `includes` holds exactly when the needle occurs at some index |
| Text.ContainsLower | src/stores/stores.service.ts:309-310 | an occurrence survives lower-casing as the lower-cased needle |
| Text.ContainsFirstChar | src/stores/stores.service.ts:333-335 | a text containing a non-empty needle contains the needle's first character |
| Text.LowerNormal | src/stores/entities/store.entity.ts:130-136 | lower-casing is idempotent and keeps a trimmed text trimmed |
| Text.UpperNormal | src/stores/entities/store.entity.ts:83-99 | upper-casing is idempotent and keeps a trimmed text trimmed |
| Text.TrimStart | src/stores/entities/store.entity.ts:14 | the result is a suffix of the input, does not start with white space, and only white space was removed |
| Text.TrimEnd | src/stores/entities/store.entity.ts:22 | the result is a prefix of the input, does not end with white space, and only white space was removed |
| Text.Trim | src/stores/entities/store.entity.ts:59 | `trim()` yields a contiguous slice of its input that neither starts nor ends with white space, with only white space cut off on either side |
| Text.TrimOfTrimmed | src/stores/entities/store.entity.ts:105 | trimming an already trimmed text changes nothing |
| Text.TrimIdempotent | src/stores/entities/store.entity.ts:59 | trimming twice is trimming once, so re-assigning a trimmed field changes nothing |
| Text.NatToString | src/stores/stores.service.ts:313 | the decimal numeral of `n` is canonical (non-empty, all digits, no leading zero unless it is "0") and reads back as `n` |
| Text.NumeralIsCanonical | src/stores/stores.service.ts:313 | round trip: a canonical numeral is the rendering of the number it reads as, so a rendered count is the only text showing that count |
| Text.IntToString | src/stores/stores.service.ts:283 | the numeral of an integer is never empty; `IntToStringCanonical` states what it reads as |
| Text.IntToStringCanonical | src/stores/stores.service.ts:283 | an integer's numeral is a canonical numeral of its magnitude, preceded by one minus sign exactly when negative, and shows the integer |
| Text.FixedTwo | src/stores/stores.service.ts:284 | `(cents / 100).toFixed(2)` ends with a point and exactly two digits; `FixedTwoCanonical` states the whole part and the amount |
| Text.FixedTwoCanonical | src/stores/stores.service.ts:284 | the two-decimal text shows the amount in cents, and before the point is a canonical signed numeral of the whole units |
| Text.FixedOne | src/stores/stores.service.ts:252 | `(tenths / 10).toFixed(1)` ends with a point and one digit; `FixedOneCanonical` states the whole part and the amount |
| Text.FixedOneCanonical | src/stores/stores.service.ts:252 | the one-decimal text shows the amount in tenths, and before the point is a canonical numeral of the whole units |
| Text.ShowsAmountFramed | src/stores/stores.service.ts:283-284 | surrounding a number with text holding no digit and no minus sign keeps the amount it shows |
| Text.FixedTwoOf1500 | src/stores/stores.service.ts:284 | 15 renders as "15.00" |
| Text.FixedTwoOf2700 | src/stores/stores.service.ts:347 | 27 renders as "27.00" |
| Text.FixedTwoOf2550 | src/stores/stores.service.ts:354 | 25.5 renders as "25.50" |
| Text.FixedOneOf10 | src/stores/stores.service.ts:252 | 1 km renders as "1.0" |
| StoreEntity.SetPostalCode | src/stores/entities/store.entity.ts:114-118 | the setter accepts exactly the inputs holding eight digits, and stores those digits; any other input throws "CEP inválido" |
| StoreEntity.FirstDigitRun | src/stores/entities/store.entity.ts:119 | finds the leftmost start of eight consecutive digits, where the getter's pattern first matches |
| StoreEntity.DisplayPostalCode | src/stores/entities/store.entity.ts:119 | the getter only inserts a non-digit (the digits are unchanged), and a stored code is shown as `DDDDD-DDD` |
| StoreEntity.SetterAfterGetter | src/stores/entities/store.entity.ts:114-119 | round trip: the setter turns the displayed form of a stored code back into that stored code |
| StoreEntity.SetterIdempotent | src/stores/entities/store.entity.ts:114-118 | re-assigning a stored code stores it unchanged |
| StoreEntity.TrimOpt | src/stores/entities/store.entity.ts:63-67 | an optional trimmed field stays absent or present, and a present value is the given one trimmed |
| StoreEntity.UpperTrimOpt | src/stores/entities/store.entity.ts:83-99 | `trim` + `uppercase` store the given value trimmed then upper-cased, which is in normal form |
| StoreEntity.LowerTrimOpt | src/stores/entities/store.entity.ts:130-136 | `trim` + `lowercase` store the given value trimmed then lower-cased, which is in normal form |
| StoreEntity.DefaultCountryTrimmed | src/stores/entities/store.entity.ts:101-107 | the default "Brasil" passes the trim setter unchanged |
| StoreEntity.CastCountry | src/stores/entities/store.entity.ts:101-107 | an absent country becomes "Brasil"; a given one is stored trimmed |
| StoreEntity.CastInput | src/stores/entities/store.entity.ts:9-153 | after the setters and defaults every text field is trimmed, state is upper-case, email is lower-case, a cast postal code is eight digits, `takeOutInStore` defaults to true, `country` to "Brasil" and `location` to the point [0, 0] |
| StoreEntity.CastNormalisesGivenFields | src/stores/entities/store.entity.ts:9-153 | each supplied field reaches the cast document as given after its setters: names, addresses, city, district, country and telephone trimmed; state and type trimmed and upper-cased; email trimmed and lower-cased; lead time, latitude, longitude and location unchanged; an absent optional field stays absent |
| StoreEntity.ValidateEmptyIffPasses | src/stores/entities/store.entity.ts:9-153 | validation reports no error exactly when every validator passes |
| StoreEntity.Build | src/stores/entities/store.entity.ts:9-153 | a passing cast document satisfies every schema constraint |
| StoreEntity.Admit | src/stores/entities/store.entity.ts:9-153 | a document is admitted exactly when every validator passes; otherwise the non-empty list of failing validators is reported |
| StoreEntity.Create | src/stores/entities/store.entity.ts:9-153 | a created document satisfies every schema constraint and stores the digits of the postal code it was given; a rejected one reports at least one error; `CreateKeepsGivenFields` and `CreateKeepsDeliveryFields` tie the remaining fields to the input |
| StoreEntity.CreateKeepsGivenFields | src/stores/entities/store.entity.ts:10-81 | a created document's id, name, first address line, city and district were supplied, and are the supplied values trimmed |
| StoreEntity.CreateKeepsDeliveryFields | src/stores/entities/store.entity.ts:33-99 | a created document's state and type are the supplied values trimmed and upper-cased, and its lead time, latitude and longitude are the supplied numbers |
| StoreEntity.CreateRejectsBadPostalCode | src/stores/entities/store.entity.ts:109-121 | a missing postal code, or one without exactly eight digits, is rejected and reported under `postalCode` |
| StoreEntity.CreateDefaults | src/stores/entities/store.entity.ts:26-31 | absent `takeOutInStore`, `country` and `location` take the defaults true, "Brasil" and the point [0, 0]; a supplied `takeOutInStore` is kept |
| StoreEntity.CreateAcceptsWellFormed | src/stores/entities/store.entity.ts:9-153 | round trip: re-creating a well-formed document from its own fields yields the same document |
| StoreEntity.PreSave | src/stores/entities/store.entity.ts:161-166 | when latitude or longitude changed, the coordinates become `[longitude, latitude]`; otherwise the document is unchanged; nothing but the coordinates ever changes |
| StoreEntity.PreSaveKeepsWellFormed | src/stores/entities/store.entity.ts:161-166 | the hook preserves every schema constraint |
| StoreEntity.SaveNew | src/stores/entities/store.entity.ts:161-166 | a saved new document is the created document with coordinates `[longitude, latitude]`; saving fails exactly when creation does |
| MelhorEnvio.CoerceNumber | src/common/apis/services/melhor-envio.service.ts:65-66 | `Number(x) \|\| 0` keeps every number and turns NaN into 0 |
| MelhorEnvio.SanitiseCompany | src/common/apis/services/melhor-envio.service.ts:67-72 | the company is present exactly when the quote had one, and its name is kept when non-empty and replaced by "Transportadora não identificada" otherwise |
| MelhorEnvio.SanitiseQuote | src/common/apis/services/melhor-envio.service.ts:63-73 | the other fields are carried over, price and lead time are coerced to numbers, and the company is the sanitised one: present exactly when the quote had one, its name kept when non-empty and "Transportadora não identificada" otherwise |
| MelhorEnvio.SanitiseAll | src/common/apis/services/melhor-envio.service.ts:63-73 | the mapping throws a non-axios error exactly when some element is `null`; otherwise each quote is sanitised in order |
| MelhorEnvio.HandleError | src/common/apis/services/melhor-envio.service.ts:87-113 | only an axios error with status 401 is rethrown (as the authentication message); every other error becomes an empty list |
| MelhorEnvio.CalculateShipping | src/common/apis/services/melhor-envio.service.ts:12-77 | a postal code that does not hold exactly eight digits gives no quotes; the call fails exactly when both codes are valid and the endpoint answers 401 |
| MelhorEnvio.QuotesDependOnPairOnly | src/common/apis/services/melhor-envio.service.ts:17-27 | the endpoint is consulted only about the cleaned (from, to) pair |
| MelhorEnvio.FailuresGiveNoQuotes | src/common/apis/services/melhor-envio.service.ts:55-61 | a non-array body, a `null` element or a non-401 HTTP failure all give an empty quote list |
| MelhorEnvio.QuotesSanitisedInOrder | src/common/apis/services/melhor-envio.service.ts:63-73 | a well-formed array reply gives its quotes sanitised one by one, same length and order |
| MelhorEnvio.PairReplySanitised | src/common/apis/services/melhor-envio.service.ts:55-73 | a reply of two quote objects gives exactly those two quotes, sanitised, in order |
| ShippingOptions.FramesCarryNoAmount | src/stores/stores.service.ts:283-284 | the texts around prices and lead times hold no digit or minus sign |
| ShippingOptions.PriceText | src/stores/stores.service.ts:284 | `R$ ${x.toFixed(2)}` starts with "R$ " and has its decimal point three characters from the end |
| ShippingOptions.PriceTextCanonical | src/stores/stores.service.ts:284 | a price text shows its amount in cents, and between "R$ " and the decimals is a canonical signed numeral of the whole units |
| ShippingOptions.PluralLeadTime | src/stores/stores.service.ts:313 | the carrier lead time ends with " dias úteis" after a non-empty count |
| ShippingOptions.PluralLeadTimeCanonical | src/stores/stores.service.ts:313 | the plural lead time shows the day count, written as a canonical signed numeral before " dias úteis" |
| ShippingOptions.PdvLeadTime | src/stores/stores.service.ts:283 | one day reads "1 dia útil" and any other count takes the plural form |
| ShippingOptions.PdvLeadTimeShows | src/stores/stores.service.ts:283 | the courier lead time shows the day count, singular or plural |
| ShippingOptions.PdvOption | src/stores/stores.service.ts:278-287 | the courier option has the store's lead time, a price starting "R$ ", is described "Motoboy", and has no company or product code; `PdvOptionShows` fixes the price text |
| ShippingOptions.PdvOptionShows | src/stores/stores.service.ts:278-287 | whatever the lead time, the courier price reads exactly "R$ 15.00", and the lead time shows the store's day count |
| ShippingOptions.OptionOfQuote | src/stores/stores.service.ts:304-329 | mapping throws exactly on a non-string name; a quote naming Sedex gets the Sedex description and code, one naming only PAC gets PAC's; a recognised quote gets a company; an unrecognised one gets neither |
| ShippingOptions.KeepTierOptions | src/stores/stores.service.ts:330-336 | the filter keeps exactly the options with a price and a product code or a tier name: every kept option comes from the input and every such input option is kept |
| ShippingOptions.OptionsOfQuotes | src/stores/stores.service.ts:304-329 | the options are one per quote in order, unless some quote's name is not a string |
| ShippingOptions.DefaultShippingOptions | src/stores/stores.service.ts:343-360 | the fallback is exactly two options, Sedex then PAC, with their descriptions and codes, by Correios, and both survive the filter |
| ShippingOptions.FallbackOption | src/stores/stores.service.ts:343-360 | a fallback option carries its tier's description and product code, names Correios, and survives the filter |
| ShippingOptions.FallbackOptionShows | src/stores/stores.service.ts:343-360 | a fallback option shows its tier's default price and default day count |
| ShippingOptions.DefaultShippingOptionsShow | src/stores/stores.service.ts:343-360 | the fallback pair shows 27.00 over 2 days for Sedex and 25.50 over 6 days for PAC |
| ShippingOptions.DefaultShippingOptionsText | src/stores/stores.service.ts:343-360 | the fallback reads "2 dias úteis" at "R$ 27.00" and "6 dias úteis" at "R$ 25.50" |
| ShippingOptions.SedexNamedQuote | src/stores/stores.service.ts:309 | a quote named "Sedex" is recognised as Sedex |
| ShippingOptions.PacNamedQuote | src/stores/stores.service.ts:309-310 | a quote named "PAC" is recognised as PAC and not as Sedex |
| ShippingOptions.TierOptionAtDefaults | src/stores/stores.service.ts:312-327 | a recognised quote at its tier's default price and lead time, by Correios, maps to exactly the tier's fallback option |
| ShippingOptions.DefaultValuedQuotes | src/stores/stores.service.ts:304-336 | quotes Sedex then PAC at their default values, by Correios, map and filter to exactly the fallback pair |
| ShippingOptions.ShippingOptionsOf | src/stores/stores.service.ts:293-340 | every option returned is one the filter keeps; a missing quote list or a thrown error gives the fallback pair |
| ShippingOptions.LookupOf | src/stores/stores.service.ts:294-297 | the service sees the client's quotes, or the error the client rethrew, never a missing list |
| ShippingOptions.GetShippingOptions | src/stores/stores.service.ts:289-341 | every option offered for a regular store passes the filter |
| ShippingOptions.UntitledIsNoTier | src/stores/stores.service.ts:319 | the placeholder "Entrega padrão" mentions neither Sedex nor PAC |
| ShippingOptions.UnrecognisedDropped | src/stores/stores.service.ts:330-336 | the option of a quote naming neither tier is dropped by the filter |
| ShippingOptions.RecognisedKept | src/stores/stores.service.ts:320-336 | the option of a quote naming a tier is that tier's option and is kept |
| ShippingOptions.KeptIffTier | src/stores/stores.service.ts:304-336 | an option survives the filter exactly when its quote names Sedex or PAC |
| ShippingOptions.FilterKeepsTierQuotes | src/stores/stores.service.ts:304-336 | map then filter gives exactly the recognised quotes' tier options, in quote order |
| ShippingOptions.ShippingOptionsCases | src/stores/stores.service.ts:289-341 | a thrown client error or a non-string name gives the fallback pair; otherwise the options are exactly the recognised quotes' options (none for an empty list) |
| ShippingOptions.QuoteListCases | src/stores/stores.service.ts:304-340 | for a quote list, a non-string name anywhere gives the fallback pair; otherwise the result is exactly the recognised quotes' tier options |
| ShippingOptions.LookupOptionsCoded | src/stores/stores.service.ts:289-360 | whatever the lookup gives, every option carries a product code |
| ShippingOptions.TierOptionsCoded | src/stores/stores.service.ts:320-327 | every recognised quote's option carries a product code |
| ShippingOptions.CarrierOptionsCoded | src/stores/stores.service.ts:289-360 | every carrier option carries a product code, whatever the carrier answers |
| ShippingOptions.PdvOptionForOneDay | src/stores/stores.service.spec.ts:362-368 | the one-day courier option is exactly the one the PDV test expects: "1 dia útil", "R$ 15.00", "Motoboy", no company or code |
| StoresService.FindStoresByState | src/stores/stores.service.ts:362-364 | the candidates are exactly the documents whose state equals the upper-cased `uf`, and they come from the collection |
| StoresService.CalculateRealDistance | src/stores/stores.service.ts:185-207 | the distance lookup succeeds exactly when the matrix has a first element with status "OK", and returns that element |
| StoresService.PdvRadiusBoundary | src/stores/stores.service.ts:268-276 | the radius is inclusive: a PDV at 50 000 m is local, at 50 001 m it is not |
| StoresService.IsValidPdvIff | src/stores/stores.service.ts:268-276 | a store is local exactly when it is a PDV within 50 000 m |
| StoresService.RoundedTenthsOfKm | src/stores/stores.service.ts:246-252 | the displayed tenth of a kilometre is the nearest one to the true distance |
| StoresService.DistanceText | src/stores/stores.service.ts:252 | the distance text ends with a point, one digit and " km" |
| StoresService.DistanceTextCanonical | src/stores/stores.service.ts:246-252 | the distance text shows the rounded tenths of a kilometre, and before the point is a canonical numeral of the whole kilometres |
| StoresService.MapToStoreResponse | src/stores/stores.service.ts:224-239 | the result carries the store's name, city, type and (latitude, longitude), the getter's postal code, and no distance or options yet |
| StoresService.BuildStoreResponse | src/stores/stores.service.ts:241-266 | distance and duration come from the matrix; a local PDV gets the courier option, any other LOJA gets carrier options for (origin, displayed postal code), and any other store gets none |
| StoresService.ProcessStore | src/stores/stores.service.ts:79-95 | a store becomes `null` exactly when its distance lookup fails |
| StoresService.ProcessAll | src/stores/stores.service.ts:78-96 | `Promise.all` keeps one outcome per candidate, in order |
| StoresService.DropNulls | src/stores/stores.service.ts:96-98 | the filter keeps exactly the non-null outcomes: each result was a non-null outcome and every non-null outcome appears |
| StoresService.PinsOf | src/stores/stores.service.ts:214-217 | one pin per store, at its position, titled with its name |
| StoresService.BuildFinalResponse | src/stores/stores.service.ts:209-222 | pins pair with stores one to one; `limit` and `total` are the count and `offset` is 0 |
| StoresService.FindByCep | src/stores/stores.service.ts:73-108 | the request fails, always with 500 "Erro ao buscar lojas", exactly when the address lookup or the catalogue fails (given distance elements that carry a distance and a duration); otherwise the envelope invariants hold |
| StoresService.ReachableStores | src/stores/stores.service.ts:79-98 | the reference survivor set is exactly the candidates whose distance lookup succeeds |
| StoresService.ResultsOf | src/stores/stores.service.ts:79-98 | the reference results have one entry per reachable store |
| StoresService.SurvivorsAreReachableStores | src/stores/stores.service.ts:78-98 | failure isolation, for distance elements that carry a distance and a duration: map, catch and filter give exactly the reachable stores' results in catalogue order; an unreachable store removes only itself |
| StoresService.FindByCepStores | src/stores/stores.service.ts:73-100 | a successful response lists the reachable candidates of the requested state, each resolved against the digits of the requested postal code |
| StoresService.CourierOptionIffLocal | src/stores/stores.service.ts:256-263 | the regimes never mix: a result holds the courier option exactly when the store is a local PDV, and then holds nothing else |
| StoresService.CarrierSeesStoredPostalCode | src/stores/stores.service.ts:258-262 | the carrier is asked only about (digits of the origin, stored eight-digit postal code), despite the getter's hyphen |
| StoresService.NearbyPdvCase | src/stores/stores.service.spec.ts:341-369 | a one-day PDV anywhere within 50 000 m gets exactly the option "1 dia útil", "R$ 15.00", "Motoboy"; at the test's 1 000 m (the distance mock at `stores.service.spec.ts:97`) it shows "1.0 km" |
| StoresService.RejectedTokenCase | src/stores/stores.service.ts:337-360 | a LOJA whose carrier answers 401 (rethrown by the client at `melhor-envio.service.ts:97-99`) gets the fallback pair "R$ 27.00" / "R$ 25.50" |
| StoresService.LiveTierQuotesCase | src/stores/stores.service.spec.ts:372-409 | a LOJA whose carrier answers Sedex 27.00 in 2 days and PAC 25.50 in 6 days, by Correios (the mock at `stores.service.spec.ts:106-120`), lists exactly the two options the LOJA test expects |
| StoresService.TimedOutCarrierCase | src/common/apis/services/melhor-envio.service.ts:87-113 | a LOJA whose carrier call times out gets no option at all |

## Left out

- The HTTP layer (controller, routing, `HttpException` rendering) is not modelled. Only the status and message of the 500 error are.
- Logging is left out (`this.logger` calls everywhere).
- Request building is left out: the Melhor Envio request body, headers, token and the 5-second timeout. The timeout is represented only by its outcome, an axios error without a status.
- `StoresService.FindByCep`: a distance element with status "OK" is assumed to carry `distance.value` and `duration.text` (`DistanceElement` always has both). In the code, `buildStoreResponse` reads both (`stores.service.ts:246`, `253`), and its promise is returned without `await` inside the per-store `try` (`stores.service.ts:87`). A rejection there would therefore escape the per-store `catch`, reject `Promise.all`, and turn the whole request into the 500. The model does not promise failure isolation for such an element; `SurvivorsAreReachableStores` holds only under this assumption.
- `Promise.all` concurrency is left out. The per-store tasks are independent, so the model runs them in order; the result order is the same.
- Collaborators are modelled as pure functions of their arguments. Two calls with the same arguments give the same answer, which a real network does not promise.
- ViaCEP is abstracted: the address reply is "state, or failure". A reply without `uf` (which throws on `toUpperCase`) is folded into failure.
- The Google response shape is simplified: a matrix whose first row is missing entirely throws like a missing element. `MatrixFailed` covers both.
- `StoresService.FindStoresByState`, `StoreEntity.UpperTrimOpt` (state, type), `StoreEntity.LowerTrimOpt` (email) and `ShippingOptions.NameMentions` use ASCII case mapping. JavaScript's `toUpperCase` and `toLowerCase` also map non-ASCII letters; state codes and carrier names are ASCII in practice.
- `Text.IntToString`, `Text.FixedTwo`, `Text.FixedOne`, `ShippingOptions.PriceText`, `ShippingOptions.PluralLeadTime`, `ShippingOptions.PdvLeadTime`, `ShippingOptions.PdvOption`, `ShippingOptions.DefaultShippingOptions`, `StoresService.DistanceText`: the function contracts state only the shape of the text, so that these facts are not re-derived every time a fixed price is evaluated. The rest is proved by companion lemmas over all inputs:
  - `IntToStringCanonical`, `FixedTwoCanonical`, `FixedOneCanonical`, `PriceTextCanonical`, `PluralLeadTimeCanonical` and `DistanceTextCanonical` prove the amount shown and the canonical numeral;
  - `PdvLeadTimeShows` proves the courier lead time shows the day count;
  - `PdvOptionShows` proves the courier price is exactly "R$ 15.00";
  - `DefaultShippingOptionsShow` and `DefaultShippingOptionsText` prove the fallback amounts and their exact texts.
- `StoreEntity.CastInput`, `StoreEntity.Create`: the function contracts tie only the postal code and the defaults to the input. The per-field values (trimmed, upper-cased, lower-cased or unchanged) are proved by `CastNormalisesGivenFields`, `CreateKeepsGivenFields` and `CreateKeepsDeliveryFields`.
- `Text.FixedTwo`, `Text.FixedOne`: amounts are exact decimals (cents, tenths). Binary floating point and the round-half behaviour of `toFixed` on values like 0.05 are not modelled. Distances are rounded half up on whole metres.
- `MelhorEnvio.CoerceNumber`: the numeric value of a quote field is taken as already parsed. JavaScript's string-to-number parsing rules are not modelled, and prices are whole cents.
- `MelhorEnvio.SanitiseAll`: only `null` elements and objects are modelled. A primitive element such as a number or a string, which `...quote` would spread oddly, is not.
- `StoreEntity.CheckState`, `StoreEntity.Create`, `StoreEntity.CastInput`: `length: 2` on `state` (`store.entity.ts:86`) is modelled as a constraint the document must meet (`IsStateCode`). `length` is not a built-in Mongoose string validator (strings have `minLength` and `maxLength`), so the deployed schema does not enforce it; the model is stricter than the code here.
- `StoreEntity.CastInput`: the setter runs before `trim` and `match`, as Mongoose applies custom setters. `unique` and index options are database concerns and are not modelled.
- The remaining store operations (`create` at `stores.service.ts:24`, `listAll` at `:110`, `findById` at `:132`, `findByState` at `:151`) are plain persistence wrappers around the same schema and are not part of this model.
- The legacy Express files (`src/services/*`, `src/controllers/*`, `src/models/storeModel.ts`, `src/utils/distanceCalculator.ts`) are not part of this model.
- Timestamps (`timestamps: true`) are not modelled.

=== FILE: delivery_policy.dfy ===
/** The static delivery policy (`DELIVERY_CONSTANTS`): the local courier
    ("Motoboy") tier for PDV stores and the two Correios parcel tiers, with
    the defaults used when no live carrier quote is available. Prices are in
    integer cents. */
module DeliveryPolicy {
  import opened Text

  /** Local courier radius, in kilometres. */
  const PdvMaxRadiusKm: nat := 50

  /** Flat local courier price: R$ 15.00. */
  const PdvPriceCents: nat := 1500

  const PdvDescription: string := "Motoboy"

  /** One Correios service tier: product code, customer-facing description,
      fallback price (cents) and fallback lead time (business days). */
  datatype CarrierTier = CarrierTier(
    code: string,
    description: string,
    defaultPriceCents: nat,
    defaultDays: nat)

  /** The tier name each description opens with. */
  const SedexTag: string := "Sedex"
  const PacTag: string := "PAC"

  const Sedex: CarrierTier :=
    CarrierTier("04014", SedexTag + " a encomenda expressa dos Correios", 2700, 2)

  const Pac: CarrierTier :=
    CarrierTier("04510", PacTag + " a encomenda econômica dos Correios", 2550, 6)

  /** The local radius compared against distances in metres. */
  function PdvMaxRadiusMeters(): (m: nat)
    ensures m == 50000
  {
    PdvMaxRadiusKm * 1000
  }

  /** Each tier description names its tier the way the quote filter looks
      for it, and the two product codes are distinct and non-empty, so the
      tiers cannot be confused downstream. */
  lemma TierDescriptionsTagged()
    ensures Contains(Sedex.description, "Sedex")
    ensures Contains(Pac.description, "PAC")
    ensures Sedex.code != Pac.code && Sedex.code != [] && Pac.code != []
  {
    StartsWithAppend(SedexTag, " a encomenda expressa dos Correios");
    StartsWithAppend(PacTag, " a encomenda econômica dos Correios");
    assert Sedex.code[2] == '0' && Pac.code[2] == '5';
  }

  lemma StartsWithAppend(p: string, q: string)
    ensures StartsWith(p + q, p)
  {
    assert (p + q)[..|p|] == p;
  }
}

=== FILE: melhor_envio.dfy ===
/** The Melhor Envio carrier client (`calculateShipping`): both postal codes
    are reduced to digits and checked, the quote endpoint is called, each
    quote in the reply is sanitised, and failures are classified into "no
    quotes" or a thrown error. The HTTP call itself is a parameter: a function
    from the two cleaned postal codes to the reply. */
module MelhorEnvio {
  import opened Wrappers
  import opened Text

  /** What JavaScript's `Number(x)` yields for a raw field: a number (in the
      unit of its field: cents for prices, days for lead times) or NaN, which
      is also what a missing or non-numeric field gives. */
  datatype Numeric = Number(value: int) | NaN

  /** `Number(x) || 0`: NaN becomes 0; every number is kept (0 stays 0). */
  function CoerceNumber(n: Numeric): (v: int)
    ensures n.Number? ==> v == n.value
    ensures n.NaN? ==> v == 0
  {
    match n
    case Number(x) => x
    case NaN => 0
  }

  /** A quote's `name` field: absent, a string, or some other JSON value. */
  datatype RawName = NameMissing | NameText(text: string) | NameNotText

  /** A quote's `company` object; only its `name` matters here. */
  datatype RawCompany = RawCompany(name: Option<string>)

  /** One quote object as the carrier sent it. Fields other than those read
      by the client travel in `id`. */
  datatype RawQuote = RawQuote(
    id: string,
    name: RawName,
    price: Numeric,
    deliveryTime: Numeric,
    company: Option<RawCompany>)

  /** One element of the reply array: `null`/`undefined`, or an object. */
  datatype RawElement = NullElement | QuoteObject(quote: RawQuote)

  /** The reply body: a JSON array, or anything else. */
  datatype ReplyBody = JsonArray(elements: seq<RawElement>) | JsonOther

  /** The outcome of the HTTP call: a 2xx reply, or an axios error carrying
      the HTTP status when a response arrived (none on timeout or network
      failure). */
  datatype HttpReply = Reply(body: ReplyBody) | AxiosFailure(status: Option<int>)

  /** What the client catches: an axios error, or any other error. */
  datatype CaughtError = AxiosError(status: Option<int>) | OtherError(message: string)

  datatype Company = Company(name: string)

  /** A sanitised quote: numeric price (cents) and lead time (days). */
  datatype Quote = Quote(
    id: string,
    name: RawName,
    price: int,
    deliveryTime: int,
    company: Option<Company>)

  const UnknownCarrierName: string := "Transportadora não identificada"
  const InvalidCepMessage: string := "CEP inválido"
  const NullQuoteMessage: string := "Cannot read properties of null"
  const AuthFailedMessage: string := "Autenticação falhou - verifique o token"

  /** The pattern `/^[0-9]{8}$/`. */
  predicate IsValidCep(s: string) {
    |s| == 8 && AllDigits(s)
  }

  /** A cleaned postal code is valid exactly when the raw text holds eight
      digits, whatever else it holds. */
  lemma ValidCepIffEightDigits(raw: string)
    ensures IsValidCep(StripNonDigits(raw)) <==> |StripNonDigits(raw)| == 8
  {
  }

  /** The company object after sanitising: kept when present, with an empty
      or missing name replaced; `null` when absent. */
  function SanitiseCompany(c: Option<RawCompany>): (r: Option<Company>)
    ensures r.Some? <==> c.Some?
    ensures r.Some? ==> r.value.name != []
    ensures r.Some? && c.value.name.Some? && c.value.name.value != [] ==> r.value.name == c.value.name.value
    ensures r.Some? && (c.value.name.None? || c.value.name.value == []) ==> r.value.name == UnknownCarrierName
  {
    match c
    case None => None
    case Some(raw) =>
      if raw.name.Some? && raw.name.value != [] then Some(Company(raw.name.value))
      else Some(Company(UnknownCarrierName))
  }

  /** One quote: the other fields carried over, price and lead time made
      numeric (NaN and missing become 0), the company sanitised. */
  function SanitiseQuote(q: RawQuote): (r: Quote)
    ensures r.id == q.id && r.name == q.name
    ensures r.price == (if q.price.Number? then q.price.value else 0)
    ensures r.deliveryTime == (if q.deliveryTime.Number? then q.deliveryTime.value else 0)
    ensures r.company.Some? <==> q.company.Some?
    ensures r.company == SanitiseCompany(q.company)
  {
    Quote(q.id, q.name, CoerceNumber(q.price), CoerceNumber(q.deliveryTime), SanitiseCompany(q.company))
  }

  predicate HasNullElement(es: seq<RawElement>) {
    exists i :: 0 <= i < |es| && es[i].NullElement?
  }

  /** `response.data.map(...)`: every element sanitised, in order; reading a
      field of a `null` element throws a (non-axios) TypeError. */
  function SanitiseAll(es: seq<RawElement>): (r: Result<seq<Quote>, CaughtError>)
    ensures r.Failure? <==> HasNullElement(es)
    ensures r.Failure? ==> r.error.OtherError?
    ensures r.Success? ==> |r.value| == |es|
    ensures r.Success? ==> forall i :: 0 <= i < |es| ==>
      es[i].QuoteObject? && r.value[i] == SanitiseQuote(es[i].quote)
  {
    if es == [] then Success([])
    else if es[0].NullElement? then Failure(OtherError(NullQuoteMessage))
    else
      match SanitiseAll(es[1..])
      case Failure(e) => Failure(e)
      case Success(rest) =>
        Success([SanitiseQuote(es[0].quote)] + rest)
  }

  /** `handleError`: an axios error with status 401 is rethrown as an
      authentication failure; everything else becomes an empty quote list. */
  function HandleError(e: CaughtError): (r: Result<seq<Quote>, string>)
    ensures r.Failure? <==> e == AxiosError(Some(401))
    ensures r.Failure? ==> r.error == AuthFailedMessage
    ensures r.Success? ==> r.value == []
  {
    if e.AxiosError? && e.status == Some(401) then Failure(AuthFailedMessage)
    else Success([])
  }

  /** `calculateShipping(from, to)`; `call` is the quote endpoint. It
      throws only the authentication failure, only on a 401 reply to a
      request with two valid postal codes; an invalid postal code yields no
      quotes. */
  function CalculateShipping(from: string, to: string, call: (string, string) -> HttpReply):
    (r: Result<seq<Quote>, string>)
    ensures !IsValidCep(StripNonDigits(from)) || !IsValidCep(StripNonDigits(to)) ==> r == Success([])
    ensures |StripNonDigits(from)| != 8 || |StripNonDigits(to)| != 8 ==> r == Success([])
    ensures r.Failure? <==>
      && IsValidCep(StripNonDigits(from)) && IsValidCep(StripNonDigits(to))
      && call(StripNonDigits(from), StripNonDigits(to)) == AxiosFailure(Some(401))
    ensures r.Failure? ==> r.error == AuthFailedMessage
  {
    var cleanFrom := StripNonDigits(from);
    var cleanTo := StripNonDigits(to);
    if !IsValidCep(cleanFrom) || !IsValidCep(cleanTo) then
      HandleError(OtherError(InvalidCepMessage))
    else
      match call(cleanFrom, cleanTo)
      case AxiosFailure(status) => HandleError(AxiosError(status))
      case Reply(JsonOther) => Success([])
      case Reply(JsonArray(es)) =>
        match SanitiseAll(es)
        case Success(quotes) => Success(quotes)
        case Failure(e) => HandleError(e)
  }

  /** The endpoint is consulted about one pair only, the digits of both
      postal codes: endpoints that agree on it give the same result. */
  lemma QuotesDependOnPairOnly(from: string, to: string, c1: (string, string) -> HttpReply,
                               c2: (string, string) -> HttpReply)
    requires c1(StripNonDigits(from), StripNonDigits(to)) == c2(StripNonDigits(from), StripNonDigits(to))
    ensures CalculateShipping(from, to, c1) == CalculateShipping(from, to, c2)
  {
  }

  /** Every other outcome than a well-formed array (a non-array body, an
      array with a null element, any other HTTP failure) yields no quotes. */
  lemma FailuresGiveNoQuotes(from: string, to: string, call: (string, string) -> HttpReply)
    requires IsValidCep(StripNonDigits(from)) && IsValidCep(StripNonDigits(to))
    requires var reply := call(StripNonDigits(from), StripNonDigits(to));
      || reply == Reply(JsonOther)
      || (reply.Reply? && reply.body.JsonArray? && HasNullElement(reply.body.elements))
      || (reply.AxiosFailure? && reply.status != Some(401))
    ensures CalculateShipping(from, to, call) == Success([])
  {
  }

  /** A well-formed array reply is sanitised quote by quote: same length,
      same order, price and lead time coerced, other fields carried over. */
  lemma QuotesSanitisedInOrder(from: string, to: string, call: (string, string) -> HttpReply)
    requires IsValidCep(StripNonDigits(from)) && IsValidCep(StripNonDigits(to))
    requires var reply := call(StripNonDigits(from), StripNonDigits(to));
      reply.Reply? && reply.body.JsonArray? && !HasNullElement(reply.body.elements)
    ensures var es := call(StripNonDigits(from), StripNonDigits(to)).body.elements;
      var r := CalculateShipping(from, to, call);
      && r.Success? && |r.value| == |es|
      && forall i :: 0 <= i < |es| ==> r.value[i] == SanitiseQuote(es[i].quote)
  {
  }

  /** A reply of two quote objects gives those two quotes, sanitised, in
      order. */
  lemma PairReplySanitised(from: string, to: string, call: (string, string) -> HttpReply, a: RawQuote, b: RawQuote)
    requires IsValidCep(StripNonDigits(from)) && IsValidCep(StripNonDigits(to))
    requires call(StripNonDigits(from), StripNonDigits(to)) == Reply(JsonArray([QuoteObject(a), QuoteObject(b)]))
    ensures CalculateShipping(from, to, call) == Success([SanitiseQuote(a), SanitiseQuote(b)])
  {
    QuotesSanitisedInOrder(from, to, call);
    var r := CalculateShipping(from, to, call).value;
    assert r[0] == SanitiseQuote(a) && r[1] == SanitiseQuote(b);
    assert r == [SanitiseQuote(a), SanitiseQuote(b)];
  }
}

=== FILE: shipping_options.dfy ===
/** The quote side of the stores service: the local courier option of a PDV
    store (`buildPdvDeliveryOption`), the carrier quotes turned into delivery
    options and filtered (`getShippingOptions`), and the fixed Sedex/PAC pair
    used when quoting fails (`getDefaultShippingOptions`). */
module ShippingOptions {
  import opened Wrappers
  import opened Text
  import opened DeliveryPolicy
  import MelhorEnvio

  /** `StoreDeliveryOption`: lead time text, price text, description, and,
      for a recognised carrier tier, the company and the product code
      (`codProdutoAgencia`). */
  datatype DeliveryOption = DeliveryOption(
    prazo: string,
    price: string,
    description: string,
    company: Option<string>,
    productCode: Option<string>)

  const PricePrefix: string := "R$ "
  const SingularDays: string := " dia útil"
  const PluralDays: string := " dias úteis"
  const UntitledDescription: string := "Entrega padrão"
  const DefaultCompany: string := "Correios"

  lemma FramesCarryNoAmount()
    ensures NoAmountChars(PricePrefix)
    ensures NoAmountChars(SingularDays)
    ensures NoAmountChars(PluralDays)
  {
  }

  // ---------------------------------------------------------------------
  // Rendering
  // ---------------------------------------------------------------------

  /** `R$ ${x.toFixed(2)}` for an amount of `cents`: "R$ " and then the
      amount with two decimals. */
  function PriceText(cents: int): (r: string)
    ensures |r| > |PricePrefix| && r[..|PricePrefix|] == PricePrefix
    ensures r[|r| - 3] == '.'
  {
    PricePrefix + FixedTwo(cents)
  }

  /** The price text shows the amount, and between "R$ " and the decimals
      stands the canonical spelling of the whole units, signed like the
      amount. */
  lemma PriceTextCanonical(cents: int)
    ensures ShowsAmount(PriceText(cents), cents)
    ensures var r := PriceText(cents);
      SignedNumeral(r[|PricePrefix|..|r| - 3], cents < 0, Abs(cents) / 100)
  {
    var x := FixedTwo(cents);
    FixedTwoCanonical(cents);
    FramesCarryNoAmount();
    ShowsAmountPrefixed(PricePrefix, x, cents);
    var r := PricePrefix + x;
    assert r[|PricePrefix|..|r| - 3] == x[..|x| - 3];
  }

  /** `${days} dias úteis`, the carrier lead time, always plural. */
  function PluralLeadTime(days: int): (r: string)
    ensures |r| > |PluralDays| && r[|r| - |PluralDays|..] == PluralDays
  {
    var r := IntToString(days) + PluralDays;
    assert r[|r| - |PluralDays|..] == PluralDays;
    r
  }

  /** The lead time shows the day count, and before " dias úteis" stands its
      canonical spelling. */
  lemma PluralLeadTimeCanonical(days: int)
    ensures ShowsAmount(PluralLeadTime(days), days)
    ensures var r := PluralLeadTime(days);
      SignedNumeral(r[..|r| - |PluralDays|], days < 0, Abs(days))
  {
    var x := IntToString(days);
    IntToStringCanonical(days);
    FramesCarryNoAmount();
    ShowsAmountSuffixed(x, PluralDays, days);
    var r := x + PluralDays;
    assert r[..|r| - |PluralDays|] == x;
  }

  /** The PDV lead time: "1 dia útil" for one day, "N dias úteis" for any
      other count. */
  function PdvLeadTime(days: int): (r: string)
    ensures days == 1 ==> r == "1" + SingularDays
    ensures days != 1 ==> r == PluralLeadTime(days)
  {
    if days != 1 then PluralLeadTime(days)
    else
      assert IntToString(1) == "1";
      IntToString(days) + SingularDays
  }

  /** Singular or plural, the PDV lead time shows the day count. */
  lemma PdvLeadTimeShows(days: int)
    ensures ShowsAmount(PdvLeadTime(days), days)
  {
    if days == 1 {
      IntToStringCanonical(days);
      FramesCarryNoAmount();
      ShowsAmountSuffixed(IntToString(days), SingularDays, days);
      assert PdvLeadTime(days) == IntToString(days) + SingularDays;
    } else {
      PluralLeadTimeCanonical(days);
    }
  }

  // ---------------------------------------------------------------------
  // Local courier
  // ---------------------------------------------------------------------

  /** The one option of a PDV store within the radius: the store's own lead
      time, the flat courier price, "Motoboy", no company or product code. */
  function PdvOption(shippingTimeInDays: int): (r: DeliveryOption)
    ensures r.prazo == PdvLeadTime(shippingTimeInDays)
    ensures StartsWith(r.price, PricePrefix)
    ensures r.description == PdvDescription
    ensures r.company.None? && r.productCode.None?
  {
    DeliveryOption(PdvLeadTime(shippingTimeInDays), PriceText(PdvPriceCents), PdvDescription, None, None)
  }

  /** The courier option shows the flat price and the store's lead time;
      whatever the lead time, the price reads exactly "R$ 15.00". */
  lemma PdvOptionShows(shippingTimeInDays: int)
    ensures ShowsAmount(PdvOption(shippingTimeInDays).price, PdvPriceCents)
    ensures ShowsAmount(PdvOption(shippingTimeInDays).prazo, shippingTimeInDays)
    ensures PdvOption(shippingTimeInDays).price == "R$ 15.00"
  {
    PriceTextCanonical(PdvPriceCents);
    PdvLeadTimeShows(shippingTimeInDays);
    assert PdvOption(shippingTimeInDays).price == PriceText(PdvPriceCents);
    PriceTextOf1500();
  }

  // ---------------------------------------------------------------------
  // Carrier quotes
  // ---------------------------------------------------------------------

  /** `quote.name?.toLowerCase().includes(needle)`. */
  predicate NameMentions(name: MelhorEnvio.RawName, needle: string) {
    name.NameText? && Contains(Lower(name.text), needle)
  }

  predicate IsSedexQuote(q: MelhorEnvio.Quote) {
    NameMentions(q.name, "sedex")
  }

  predicate IsPacQuote(q: MelhorEnvio.Quote) {
    NameMentions(q.name, "pac")
  }

  /** A quote of a recognised Correios tier. */
  predicate IsTierQuote(q: MelhorEnvio.Quote) {
    IsSedexQuote(q) || IsPacQuote(q)
  }

  /** The tier a recognised quote belongs to; Sedex wins over PAC. */
  function TierOf(q: MelhorEnvio.Quote): CarrierTier
    requires IsTierQuote(q)
  {
    if IsSedexQuote(q) then Sedex else Pac
  }

  /** `quote.company?.name || 'Correios'` */
  function CompanyName(q: MelhorEnvio.Quote): string {
    if q.company.Some? && q.company.value.name != [] then q.company.value.name else DefaultCompany
  }

  /** The `.map` callback on one quote. Reading `toLowerCase` of a name that
      is not a string throws. The price and lead time are coerced again with
      `Number(x) || 0`, which leaves the client's numbers as they are. */
  function OptionOfQuote(q: MelhorEnvio.Quote): (r: Result<DeliveryOption, string>)
    ensures r.Failure? <==> q.name.NameNotText?
    ensures r.Success? ==> r.value.prazo == PluralLeadTime(q.deliveryTime)
    ensures r.Success? ==> r.value.price == PriceText(q.price)
    ensures r.Success? && IsSedexQuote(q) ==>
      r.value.description == Sedex.description && r.value.productCode == Some(Sedex.code)
    ensures r.Success? && !IsSedexQuote(q) && IsPacQuote(q) ==>
      r.value.description == Pac.description && r.value.productCode == Some(Pac.code)
    ensures r.Success? && IsTierQuote(q) ==> r.value.company == Some(CompanyName(q))
    ensures r.Success? && !IsTierQuote(q) ==>
      && r.value.company.None? && r.value.productCode.None?
      && r.value.description == (if q.name.NameText? && q.name.text != [] then q.name.text else UntitledDescription)
  {
    if q.name.NameNotText? then Failure("quote.name.toLowerCase is not a function")
    else
      var price := MelhorEnvio.CoerceNumber(MelhorEnvio.Number(q.price));
      var deliveryTime := MelhorEnvio.CoerceNumber(MelhorEnvio.Number(q.deliveryTime));
      var isSedex := IsSedexQuote(q);
      var isPac := IsPacQuote(q);
      var description :=
        if isSedex then Sedex.description
        else if isPac then Pac.description
        else if q.name.NameText? && q.name.text != [] then q.name.text
        else UntitledDescription;
      if isSedex || isPac then
        Success(DeliveryOption(PluralLeadTime(deliveryTime), PriceText(price), description,
          Some(CompanyName(q)), Some(if isSedex then Sedex.code else Pac.code)))
      else
        Success(DeliveryOption(PluralLeadTime(deliveryTime), PriceText(price), description, None, None))
  }

  /** The `.filter` predicate: a price, and a product code or a tier name in
      the description. */
  predicate Kept(o: DeliveryOption) {
    && o.price != []
    && ((o.productCode.Some? && o.productCode.value != [])
        || Contains(o.description, "Sedex") || Contains(o.description, "PAC"))
  }

  /** `.filter(Kept)`: the kept options, in their original order. */
  function KeepTierOptions(os: seq<DeliveryOption>): (r: seq<DeliveryOption>)
    ensures |r| <= |os|
    ensures forall i :: 0 <= i < |r| ==> Kept(r[i])
    ensures forall i :: 0 <= i < |r| ==> r[i] in os
    ensures forall o :: o in os && Kept(o) ==> o in r
  {
    if os == [] then []
    else if Kept(os[0]) then [os[0]] + KeepTierOptions(os[1..])
    else KeepTierOptions(os[1..])
  }

  /** `quotes.map(...)`: every quote's option, in order, unless one throws. */
  function OptionsOfQuotes(qs: seq<MelhorEnvio.Quote>): (r: Result<seq<DeliveryOption>, string>)
    ensures r.Failure? <==> exists i :: 0 <= i < |qs| && qs[i].name.NameNotText?
    ensures r.Success? ==> |r.value| == |qs|
    ensures r.Success? ==> forall i :: 0 <= i < |qs| ==> OptionOfQuote(qs[i]) == Success(r.value[i])
  {
    MapOrThrow(qs, OptionOfQuote)
  }

  /** `o` is a fallback option of tier `t`: the tier's description and
      code, Correios as the company, and it survives the tier filter. */
  predicate FallbackFor(o: DeliveryOption, t: CarrierTier) {
    && o.description == t.description && o.productCode == Some(t.code)
    && o.company == Some(DefaultCompany) && Kept(o)
  }

  /** The fallback option of one tier. */
  function FallbackOption(t: CarrierTier): (o: DeliveryOption)
    requires t.code != []
    ensures FallbackFor(o, t)
  {
    DeliveryOption(PluralLeadTime(t.defaultDays), PriceText(t.defaultPriceCents),
      t.description, Some(DefaultCompany), Some(t.code))
  }

  /** The fallback option shows the tier's default price and lead time. */
  lemma FallbackOptionShows(t: CarrierTier)
    requires t.code != []
    ensures ShowsAmount(FallbackOption(t).price, t.defaultPriceCents)
    ensures ShowsAmount(FallbackOption(t).prazo, t.defaultDays)
  {
    PriceTextCanonical(t.defaultPriceCents);
    PluralLeadTimeCanonical(t.defaultDays);
  }

  /** The fallback pair: Sedex then PAC at their default prices and lead
      times, Correios as the company. */
  function DefaultShippingOptions(): (r: seq<DeliveryOption>)
    ensures |r| == 2
    ensures r[0].description == Sedex.description && r[0].productCode == Some(Sedex.code)
    ensures r[1].description == Pac.description && r[1].productCode == Some(Pac.code)
    ensures r[0].company == Some(DefaultCompany) && r[1].company == Some(DefaultCompany)
    ensures forall i :: 0 <= i < |r| ==> Kept(r[i])
  {
    TierCodesNonEmpty();
    var r := [FallbackOption(Sedex), FallbackOption(Pac)];
    PairKept(r);
    r
  }

  /** The fallback pair shows each tier's default price and lead time. */
  lemma DefaultShippingOptionsShow()
    ensures var r := DefaultShippingOptions();
      && ShowsAmount(r[0].price, Sedex.defaultPriceCents) && ShowsAmount(r[0].prazo, Sedex.defaultDays)
      && ShowsAmount(r[1].price, Pac.defaultPriceCents) && ShowsAmount(r[1].prazo, Pac.defaultDays)
  {
    TierCodesNonEmpty();
    FallbackOptionShows(Sedex);
    FallbackOptionShows(Pac);
  }

  lemma PairKept(r: seq<DeliveryOption>)
    requires |r| == 2 && Kept(r[0]) && Kept(r[1])
    ensures forall i :: 0 <= i < |r| ==> Kept(r[i])
  {
  }

  /** What the service's `await calculateShipping(...)` produced: a list of
      quotes, a missing or non-array value, or a thrown error. */
  datatype QuoteLookup = QuoteList(quotes: seq<MelhorEnvio.Quote>) | QuoteAbsent | QuoteThrew(message: string)

  /** `getShippingOptions` once the carrier lookup is done. */
  function ShippingOptionsOf(lookup: QuoteLookup): (r: seq<DeliveryOption>)
    ensures forall i :: 0 <= i < |r| ==> Kept(r[i])
    ensures lookup.QuoteList? ==> |r| <= |lookup.quotes| || r == DefaultShippingOptions()
    ensures !lookup.QuoteList? ==> r == DefaultShippingOptions()
  {
    match lookup
    case QuoteAbsent => DefaultShippingOptions()
    case QuoteThrew(_) => DefaultShippingOptions()
    case QuoteList(qs) =>
      match OptionsOfQuotes(qs)
      case Failure(_) => DefaultShippingOptions()
      case Success(os) => KeepTierOptions(os)
  }

  /** The service's view of the client's outcome. */
  function LookupOf(r: Result<seq<MelhorEnvio.Quote>, string>): (l: QuoteLookup)
    ensures !l.QuoteAbsent?
    ensures r.Success? ==> l == QuoteList(r.value)
    ensures r.Failure? ==> l == QuoteThrew(r.error)
  {
    match r
    case Success(qs) => QuoteList(qs)
    case Failure(m) => QuoteThrew(m)
  }

  /** `getShippingOptions(origin, destination)` with the carrier endpoint
      `call`. */
  function GetShippingOptions(origin: string, destination: string, call: (string, string) -> MelhorEnvio.HttpReply):
    (r: seq<DeliveryOption>)
    ensures forall i :: 0 <= i < |r| ==> Kept(r[i])
  {
    ShippingOptionsOf(LookupOf(MelhorEnvio.CalculateShipping(origin, destination, call)))
  }

  // ---------------------------------------------------------------------
  // Reference: the options are exactly the recognised quotes
  // ---------------------------------------------------------------------

  /** The option of a recognised quote, written directly from its tier. */
  function TierOption(q: MelhorEnvio.Quote): DeliveryOption
    requires IsTierQuote(q)
  {
    var tier := TierOf(q);
    DeliveryOption(PluralLeadTime(q.deliveryTime), PriceText(q.price), tier.description,
      Some(CompanyName(q)), Some(tier.code))
  }

  /** The recognised quotes' options, in quote order. */
  function TierOptions(qs: seq<MelhorEnvio.Quote>): seq<DeliveryOption> {
    if qs == [] then []
    else if IsTierQuote(qs[0]) then [TierOption(qs[0])] + TierOptions(qs[1..])
    else TierOptions(qs[1..])
  }

  lemma LowerSedex()
    ensures Lower("Sedex") == "sedex"
  {
    var s := "Sedex";
    assert Lower(s)[0] == 's';
  }

  lemma LowerPac()
    ensures Lower("PAC") == "pac"
  {
  }

  lemma UntitledLacksCapitals()
    ensures 'S' !in UntitledDescription && 'P' !in UntitledDescription
  {
    var s := UntitledDescription;
    assert s == ['E', 'n', 't', 'r', 'e', 'g', 'a', ' ', 'p', 'a', 'd', 'r', 'ã', 'o'];
  }

  /** The default description carries neither tier name. */
  lemma UntitledIsNoTier()
    ensures !Contains(UntitledDescription, "Sedex") && !Contains(UntitledDescription, "PAC")
  {
    UntitledLacksCapitals();
    ContainsFirstCharImplied(UntitledDescription, "Sedex");
    ContainsFirstCharImplied(UntitledDescription, "PAC");
  }

  /** An unrecognised quote's option has no product code and no tier name
      in its description, so the filter drops it. */
  lemma UnrecognisedDropped(q: MelhorEnvio.Quote)
    requires !q.name.NameNotText? && !IsTierQuote(q)
    ensures !Kept(OptionOfQuote(q).value)
  {
    var o := OptionOfQuote(q).value;
    if q.name.NameText? && q.name.text != [] {
      var t := q.name.text;
      assert o.description == t;
      ContainsLowerImplied(t, "Sedex");
      ContainsLowerImplied(t, "PAC");
      LowerSedex();
      LowerPac();
    } else {
      assert o.description == UntitledDescription;
      UntitledIsNoTier();
    }
  }

  /** A recognised quote's option is its tier option, and it is kept. */
  lemma RecognisedKept(q: MelhorEnvio.Quote)
    requires !q.name.NameNotText? && IsTierQuote(q)
    ensures OptionOfQuote(q).value == TierOption(q)
    ensures Kept(OptionOfQuote(q).value)
  {
    var o := OptionOfQuote(q).value;
    assert o.productCode == Some(TierOf(q).code);
    TierCodesNonEmpty();
  }

  lemma TierCodesNonEmpty()
    ensures Sedex.code != [] && Pac.code != []
  {
    TierDescriptionsTagged();
  }

  /** A quote's option passes the filter exactly when the quote is of a
      recognised tier; a recognised quote's option is its tier option. */
  lemma KeptIffTier(q: MelhorEnvio.Quote)
    requires !q.name.NameNotText?
    ensures Kept(OptionOfQuote(q).value) <==> IsTierQuote(q)
    ensures IsTierQuote(q) ==> OptionOfQuote(q).value == TierOption(q)
  {
    if IsTierQuote(q) {
      RecognisedKept(q);
    } else {
      UnrecognisedDropped(q);
    }
  }

  /** Mapping then filtering keeps exactly the recognised quotes, each as
      its tier option, in quote order. */
  lemma {:induction false} FilterKeepsTierQuotes(qs: seq<MelhorEnvio.Quote>)
    requires forall i :: 0 <= i < |qs| ==> !qs[i].name.NameNotText?
    ensures OptionsOfQuotes(qs).Success?
    ensures KeepTierOptions(OptionsOfQuotes(qs).value) == TierOptions(qs)
  {
    if qs != [] {
      FilterKeepsTierQuotes(qs[1..]);
      KeptIffTier(qs[0]);
      var os := OptionsOfQuotes(qs).value;
      assert os[1..] == OptionsOfQuotes(qs[1..]).value;
    }
  }

  /** A quote list gives the fallback pair when some name is not a string,
      and otherwise exactly its recognised quotes' options. */
  lemma QuoteListCases(qs: seq<MelhorEnvio.Quote>)
    ensures (exists i :: 0 <= i < |qs| && qs[i].name.NameNotText?) ==>
      ShippingOptionsOf(QuoteList(qs)) == DefaultShippingOptions()
    ensures (forall i :: 0 <= i < |qs| ==> !qs[i].name.NameNotText?) ==>
      ShippingOptionsOf(QuoteList(qs)) == TierOptions(qs)
  {
    if forall i :: 0 <= i < |qs| ==> !qs[i].name.NameNotText? {
      QuoteListFilters(qs);
    } else {
      QuoteListFallsBack(qs);
    }
  }

  lemma QuoteListFallsBack(qs: seq<MelhorEnvio.Quote>)
    requires exists i :: 0 <= i < |qs| && qs[i].name.NameNotText?
    ensures ShippingOptionsOf(QuoteList(qs)) == DefaultShippingOptions()
  {
    assert OptionsOfQuotes(qs).Failure?;
  }

  lemma QuoteListFilters(qs: seq<MelhorEnvio.Quote>)
    requires forall i :: 0 <= i < |qs| ==> !qs[i].name.NameNotText?
    ensures ShippingOptionsOf(QuoteList(qs)) == TierOptions(qs)
  {
    FilterKeepsTierQuotes(qs);
  }

  /** The end-to-end quote path: a thrown carrier error gives the fallback
      pair; a quote list gives exactly its recognised quotes (so an empty
      list gives no option at all), unless a quote's name is not a string,
      which also gives the fallback pair. */
  lemma ShippingOptionsCases(origin: string, destination: string, call: (string, string) -> MelhorEnvio.HttpReply)
    ensures var r := MelhorEnvio.CalculateShipping(origin, destination, call);
      && (r.Failure? ==> GetShippingOptions(origin, destination, call) == DefaultShippingOptions())
      && (r.Success? && (exists i :: 0 <= i < |r.value| && r.value[i].name.NameNotText?) ==>
            GetShippingOptions(origin, destination, call) == DefaultShippingOptions())
      && (r.Success? && (forall i :: 0 <= i < |r.value| ==> !r.value[i].name.NameNotText?) ==>
            GetShippingOptions(origin, destination, call) == TierOptions(r.value))
  {
    var r := MelhorEnvio.CalculateShipping(origin, destination, call);
    assert GetShippingOptions(origin, destination, call) == ShippingOptionsOf(LookupOf(r));
    if r.Success? {
      QuoteListCases(r.value);
    }
  }

  /** Every recognised quote's option carries its tier's product code. */
  lemma {:induction false} TierOptionsCoded(qs: seq<MelhorEnvio.Quote>)
    ensures forall i :: 0 <= i < |TierOptions(qs)| ==> TierOptions(qs)[i].productCode.Some?
  {
    if qs != [] {
      TierOptionsCoded(qs[1..]);
    }
  }

  /** Every option the service derives from a lookup carries a product
      code. */
  lemma LookupOptionsCoded(l: QuoteLookup)
    ensures forall i :: 0 <= i < |ShippingOptionsOf(l)| ==> ShippingOptionsOf(l)[i].productCode.Some?
  {
    if l.QuoteList? && forall i :: 0 <= i < |l.quotes| ==> !l.quotes[i].name.NameNotText? {
      QuoteListFilters(l.quotes);
      TierOptionsCoded(l.quotes);
    } else {
      if l.QuoteList? {
        QuoteListFallsBack(l.quotes);
      }
      DefaultsCoded();
    }
  }

  lemma DefaultsCoded()
    ensures forall i :: 0 <= i < |DefaultShippingOptions()| ==> DefaultShippingOptions()[i].productCode.Some?
  {
    PairCoded(DefaultShippingOptions());
  }

  lemma PairCoded(r: seq<DeliveryOption>)
    requires |r| == 2 && r[0].productCode.Some? && r[1].productCode.Some?
    ensures forall i :: 0 <= i < |r| ==> r[i].productCode.Some?
  {
  }

  /** Whatever the carrier answers, every option of `getShippingOptions`
      carries a product code: the courier option is the only one without. */
  lemma CarrierOptionsCoded(origin: string, destination: string, call: (string, string) -> MelhorEnvio.HttpReply)
    ensures forall i :: 0 <= i < |GetShippingOptions(origin, destination, call)| ==>
      GetShippingOptions(origin, destination, call)[i].productCode.Some?
  {
    LookupOptionsCoded(LookupOf(MelhorEnvio.CalculateShipping(origin, destination, call)));
  }

  lemma PriceTextOf1500()
    ensures PriceText(1500) == "R$ 15.00"
  {
    FixedTwoOf1500();
  }

  lemma PriceTextOf2700()
    ensures PriceText(2700) == "R$ 27.00"
  {
    FixedTwoOf2700();
  }

  lemma PriceTextOf2550()
    ensures PriceText(2550) == "R$ 25.50"
  {
    FixedTwoOf2550();
  }

  lemma PluralLeadTimeOf(days: nat)
    requires days < 10
    ensures PluralLeadTime(days) == [DigitChar(days)] + PluralDays
  {
  }

  /** A one-day PDV option reads "1 dia útil", "R$ 15.00", "Motoboy". */
  lemma PdvOptionForOneDay()
    ensures PdvOption(1) == DeliveryOption("1 dia útil", "R$ 15.00", "Motoboy", None, None)
  {
    assert PdvOption(1) == DeliveryOption(PdvLeadTime(1), PriceText(PdvPriceCents), PdvDescription, None, None);
    PriceTextOf1500();
    assert PdvLeadTime(1) == "1" + SingularDays;
  }

  /** The fallback pair as displayed: Sedex at "R$ 27.00" in "2 dias úteis",
      PAC at "R$ 25.50" in "6 dias úteis", both by Correios. */
  lemma DefaultShippingOptionsText()
    ensures DefaultShippingOptions() == [
      DeliveryOption("2 dias úteis", "R$ 27.00", Sedex.description, Some("Correios"), Some("04014")),
      DeliveryOption("6 dias úteis", "R$ 25.50", Pac.description, Some("Correios"), Some("04510"))]
  {
    TierCodesNonEmpty();
    SedexFallbackText();
    PacFallbackText();
  }

  lemma SedexFallbackText()
    requires Sedex.code != []
    ensures FallbackOption(Sedex) == DeliveryOption("2 dias úteis", "R$ 27.00", Sedex.description, Some("Correios"), Some("04014"))
  {
    assert FallbackOption(Sedex) == DeliveryOption(PluralLeadTime(2), PriceText(2700),
      Sedex.description, Some(DefaultCompany), Some(Sedex.code));
    PriceTextOf2700();
    PluralLeadTimeOf(2);
    assert DigitChar(2) == '2';
    assert [DigitChar(2)] + PluralDays == "2 dias úteis";
  }

  /** A quote named "Sedex" is a Sedex quote. */
  lemma SedexNamedQuote(q: MelhorEnvio.Quote)
    requires q.name == MelhorEnvio.NameText("Sedex")
    ensures IsSedexQuote(q)
  {
    LowerSedex();
    assert StartsWith("sedex", "sedex");
  }

  /** A quote named "PAC" is a PAC quote, and not a Sedex one. */
  lemma PacNamedQuote(q: MelhorEnvio.Quote)
    requires q.name == MelhorEnvio.NameText("PAC")
    ensures IsPacQuote(q) && !IsSedexQuote(q)
  {
    LowerPac();
    assert StartsWith("pac", "pac");
    ContainsFirstCharImplied("pac", "sedex");
  }

  /** A recognised quote carrying its tier's default price and lead time,
      by Correios, maps to that tier's fallback option. */
  lemma TierOptionAtDefaults(q: MelhorEnvio.Quote)
    requires IsTierQuote(q)
    requires q.price == TierOf(q).defaultPriceCents && q.deliveryTime == TierOf(q).defaultDays
    requires q.company == Some(MelhorEnvio.Company(DefaultCompany))
    ensures TierOf(q).code != [] && TierOption(q) == FallbackOption(TierOf(q))
  {
    TierCodesNonEmpty();
  }

  /** A carrier answering Sedex then PAC at their default prices and lead
      times, by Correios, gives exactly the fallback pair. */
  lemma DefaultValuedQuotes(sedex: MelhorEnvio.Quote, pac: MelhorEnvio.Quote)
    requires sedex.name == MelhorEnvio.NameText("Sedex") && pac.name == MelhorEnvio.NameText("PAC")
    requires sedex.price == Sedex.defaultPriceCents && sedex.deliveryTime == Sedex.defaultDays
    requires pac.price == Pac.defaultPriceCents && pac.deliveryTime == Pac.defaultDays
    requires sedex.company == Some(MelhorEnvio.Company(DefaultCompany))
    requires pac.company == Some(MelhorEnvio.Company(DefaultCompany))
    ensures TierOptions([sedex, pac]) == DefaultShippingOptions()
  {
    SedexNamedQuote(sedex);
    PacNamedQuote(pac);
    TierOptionAtDefaults(sedex);
    TierOptionAtDefaults(pac);
    assert [sedex, pac][1..] == [pac];
    assert TierOptions([pac]) == [TierOption(pac)];
  }

  lemma PacFallbackText()
    requires Pac.code != []
    ensures FallbackOption(Pac) == DeliveryOption("6 dias úteis", "R$ 25.50", Pac.description, Some("Correios"), Some("04510"))
  {
    assert FallbackOption(Pac) == DeliveryOption(PluralLeadTime(6), PriceText(2550),
      Pac.description, Some(DefaultCompany), Some(Pac.code));
    PriceTextOf2550();
    PluralLeadTimeOf(6);
    assert DigitChar(6) == '6';
    assert [DigitChar(6)] + PluralDays == "6 dias úteis";
  }

}

=== FILE: store_entity.dfy ===
/** The `Store` persistence schema: field normalisation (trim, upper/lower
    case, the postal-code setter), defaults, the validators Mongoose runs on
    save, the postal-code getter, and the pre-save hook that keeps the GeoJSON
    location in step with latitude and longitude. Numbers are already cast:
    latitude and longitude are `real`, the lead time an `int`. */
module StoreEntity {
  import opened Wrappers
  import opened Text

  // ---------------------------------------------------------------------
  // Postal code (CEP)
  // ---------------------------------------------------------------------

  /** A stored CEP: exactly eight ASCII digits. */
  predicate IsCepDigits(s: string) {
    |s| == 8 && AllDigits(s)
  }

  const InvalidCepMessage: string := "CEP inválido"

  /** The postalCode setter: keep the digits and reject anything that does
      not leave exactly eight of them. */
  function SetPostalCode(raw: string): (r: Result<string, string>)
    ensures r.Success? <==> |StripNonDigits(raw)| == 8
    ensures r.Success? ==> IsCepDigits(r.value) && r.value == StripNonDigits(raw)
    ensures r.Failure? ==> r.error == InvalidCepMessage
  {
    var cleaned := StripNonDigits(raw);
    if |cleaned| != 8 then Failure(InvalidCepMessage) else Success(cleaned)
  }

  /** Eight consecutive digits start at index `i` of `s`. */
  predicate DigitRunAt(s: string, i: int) {
    0 <= i && i + 8 <= |s| && AllDigits(s[i..i + 8])
  }

  /** The leftmost start, at or after `from`, of eight consecutive digits:
      where the non-global pattern `(\d{5})(\d{3})` first matches. */
  function FirstDigitRun(s: string, from: nat): (r: Option<nat>)
    ensures r.Some? ==> from <= r.value && DigitRunAt(s, r.value)
    ensures r.Some? ==> forall k :: from <= k < r.value ==> !DigitRunAt(s, k)
    ensures r.None? ==> forall k :: from <= k ==> !DigitRunAt(s, k)
    decreases |s| - from
  {
    if from + 8 > |s| then None
    else if DigitRunAt(s, from) then Some(from)
    else FirstDigitRun(s, from + 1)
  }

  /** The postalCode getter: a hyphen after the fifth digit of the first run
      of eight digits (`cep.replace(/(\d{5})(\d{3})/, '$1-$2')`). It only
      inserts a non-digit, and a stored code is shown as `DDDDD-DDD`. */
  function DisplayPostalCode(s: string): (r: string)
    ensures StripNonDigits(r) == StripNonDigits(s)
    ensures IsCepDigits(s) ==> r == s[..5] + "-" + s[5..]
  {
    match FirstDigitRun(s, 0)
    case None => s
    case Some(k) =>
      var hyphen := "-";
      assert StripNonDigits(hyphen) == [] by { assert !IsDigit(hyphen[0]); }
      StripNonDigitsAppend(s[..k + 5], hyphen);
      StripNonDigitsAppend(s[..k + 5] + hyphen, s[k + 5..]);
      StripNonDigitsAppend(s[..k + 5], s[k + 5..]);
      assert s[..k + 5] + s[k + 5..] == s;
      s[..k + 5] + hyphen + s[k + 5..]
  }

  /** Round trip: the displayed form of a stored code goes back through the
      setter to the very same stored code. */
  lemma SetterAfterGetter(p: string)
    requires IsCepDigits(p)
    ensures SetPostalCode(DisplayPostalCode(p)) == Success(p)
  {
    StripNonDigitsFixesDigits(p);
  }

  /** The setter accepts its own output unchanged: assigning a stored code
      again stores it again. */
  lemma SetterIdempotent(raw: string)
    requires SetPostalCode(raw).Success?
    ensures SetPostalCode(SetPostalCode(raw).value) == SetPostalCode(raw)
  {
    StripNonDigitsIdempotent(raw);
  }

  // ---------------------------------------------------------------------
  // The document
  // ---------------------------------------------------------------------

  /** A GeoJSON point; `coordinates` is the pair `[longitude, latitude]`. */
  datatype Location = Location(kind: string, coordinates: (real, real))

  const DefaultLocation: Location := Location("Point", (0.0, 0.0))

  const DefaultCountry: string := "Brasil"

  /** A store document as persisted. `kind` is the schema's `type` field. */
  datatype Store = Store(
    storeID: string,
    storeName: string,
    takeOutInStore: bool,
    shippingTimeInDays: int,
    latitude: real,
    longitude: real,
    address1: string,
    address2: Option<string>,
    address3: Option<string>,
    city: string,
    district: string,
    state: string,
    kind: string,
    country: string,
    postalCode: string,
    telephoneNumber: Option<string>,
    emailAddress: Option<string>,
    location: Location)

  /** The fields handed to the model constructor; `None` is an absent field. */
  datatype StoreInput = StoreInput(
    storeID: Option<string>,
    storeName: Option<string>,
    takeOutInStore: Option<bool>,
    shippingTimeInDays: Option<int>,
    latitude: Option<real>,
    longitude: Option<real>,
    address1: Option<string>,
    address2: Option<string>,
    address3: Option<string>,
    city: Option<string>,
    district: Option<string>,
    state: Option<string>,
    kind: Option<string>,
    country: Option<string>,
    postalCode: Option<string>,
    telephoneNumber: Option<string>,
    emailAddress: Option<string>,
    location: Option<Location>)

  /** A validation failure on one schema path. */
  datatype SchemaError =
    | Required(path: string)
    | NotInEnum(path: string)
    | BelowMin(path: string)
    | AboveMax(path: string)
    | WrongLength(path: string)
    | PatternMismatch(path: string)
    | CastFailed(path: string, message: string)

  // ---------------------------------------------------------------------
  // Field patterns
  // ---------------------------------------------------------------------

  /** `/^\d{10,11}$/` */
  predicate IsTelephone(t: string) {
    10 <= |t| <= 11 && AllDigits(t)
  }

  /** `[^\s@]` */
  predicate IsEmailChar(c: char) {
    !IsSpace(c) && c != '@'
  }

  predicate AllEmailChars(s: string) {
    forall i :: 0 <= i < |s| ==> IsEmailChar(s[i])
  }

  /** `/^[^\s@]+@[^\s@]+\.[^\s@]+$/`: one `@` with a non-empty local part
      before it, and after it a domain that has a dot with something on both
      sides. */
  predicate IsEmail(e: string) {
    exists i :: 0 < i < |e| && e[i] == '@' && AllEmailChars(e[..i]) && IsDomain(e[i + 1..])
  }

  predicate IsDomain(d: string) {
    AllEmailChars(d) && exists j :: 0 < j < |d| - 1 && d[j] == '.'
  }

  predicate IsStateCode(s: string) {
    |s| == 2 && Upper(s) == s && IsTrimmed(s)
  }

  predicate IsStoreKind(s: string) {
    s == "PDV" || s == "LOJA"
  }

  predicate IsRequiredText(s: string) {
    s != [] && IsTrimmed(s)
  }

  predicate IsOptionalText(o: Option<string>) {
    o.Some? ==> IsTrimmed(o.value)
  }

  /** The schema invariants every saved document satisfies. */
  predicate WellFormed(s: Store) {
    && IsRequiredText(s.storeID)
    && IsRequiredText(s.storeName)
    && s.shippingTimeInDays >= 0
    && -90.0 <= s.latitude <= 90.0
    && -180.0 <= s.longitude <= 180.0
    && IsRequiredText(s.address1)
    && IsOptionalText(s.address2)
    && IsOptionalText(s.address3)
    && IsRequiredText(s.city)
    && IsRequiredText(s.district)
    && IsStateCode(s.state)
    && IsStoreKind(s.kind)
    && IsRequiredText(s.country)
    && IsCepDigits(s.postalCode)
    && IsOptionalText(s.telephoneNumber)
    && (s.telephoneNumber.Some? && s.telephoneNumber.value != [] ==> IsTelephone(s.telephoneNumber.value))
    && IsOptionalText(s.emailAddress)
    && (s.emailAddress.Some? ==> Lower(s.emailAddress.value) == s.emailAddress.value)
    && (s.emailAddress.Some? && s.emailAddress.value != [] ==> IsEmail(s.emailAddress.value))
    && s.location.kind == "Point"
  }

  // ---------------------------------------------------------------------
  // Casting (setters and defaults) and validation
  // ---------------------------------------------------------------------

  /** `trim: true` on a field that may be absent. */
  function TrimOpt(o: Option<string>): (r: Option<string>)
    ensures r.Some? <==> o.Some?
    ensures IsOptionalText(r)
    ensures o.Some? ==> r.value == Trim(o.value)
  {
    if o.Some? then Some(Trim(o.value)) else None
  }

  /** `trim: true, uppercase: true`: the value is stored in its normal form. */
  function UpperTrimOpt(o: Option<string>): (r: Option<string>)
    ensures r.Some? <==> o.Some?
    ensures r.Some? ==> Upper(r.value) == r.value && IsTrimmed(r.value)
    ensures o.Some? ==> r.value == Upper(Trim(o.value))
  {
    if o.Some? then
      UpperNormal(Trim(o.value));
      Some(Upper(Trim(o.value)))
    else None
  }

  /** `trim: true, lowercase: true`: the value is stored in its normal form. */
  function LowerTrimOpt(o: Option<string>): (r: Option<string>)
    ensures r.Some? <==> o.Some?
    ensures r.Some? ==> Lower(r.value) == r.value && IsTrimmed(r.value)
    ensures o.Some? ==> r.value == Lower(Trim(o.value))
  {
    if o.Some? then
      LowerNormal(Trim(o.value));
      Some(Lower(Trim(o.value)))
    else None
  }

  /** A required string fails on absence and on the empty string. */
  function CheckRequired(path: string, v: Option<string>): seq<SchemaError> {
    if v.None? || v.value == [] then [Required(path)] else []
  }

  function CheckRequiredValue<T>(path: string, v: Option<T>): seq<SchemaError> {
    if v.None? then [Required(path)] else []
  }

  function CheckRange(path: string, v: Option<real>, lo: real, hi: real): seq<SchemaError> {
    if v.None? then [Required(path)]
    else if v.value < lo then [BelowMin(path)]
    else if v.value > hi then [AboveMax(path)]
    else []
  }

  function CheckLeadTime(v: Option<int>): seq<SchemaError> {
    if v.None? then [Required("shippingTimeInDays")]
    else if v.value < 0 then [BelowMin("shippingTimeInDays")]
    else []
  }

  function CheckState(v: Option<string>): seq<SchemaError> {
    if v.None? || v.value == [] then [Required("state")]
    else if |v.value| != 2 then [WrongLength("state")]
    else []
  }

  function CheckKind(v: Option<string>): seq<SchemaError> {
    if v.None? || v.value == [] then [Required("type")]
    else if !IsStoreKind(v.value) then [NotInEnum("type")]
    else []
  }

  /** The postal code after the setter ran on it. */
  function CastPostalCode(v: Option<string>): Option<Result<string, string>> {
    if v.None? then None else Some(SetPostalCode(v.value))
  }

  function CheckPostalCode(v: Option<Result<string, string>>): seq<SchemaError> {
    if v.None? then [Required("postalCode")]
    else if v.value.Failure? then [CastFailed("postalCode", v.value.error)]
    else []
  }

  /** Pattern validators pass on an absent or empty value. */
  function CheckTelephone(v: Option<string>): seq<SchemaError> {
    if v.Some? && v.value != [] && !IsTelephone(v.value) then [PatternMismatch("telephoneNumber")] else []
  }

  function CheckEmail(v: Option<string>): seq<SchemaError> {
    if v.Some? && v.value != [] && !IsEmail(v.value) then [PatternMismatch("emailAddress")] else []
  }

  function CheckLocation(l: Location): seq<SchemaError> {
    if l.kind != "Point" then [NotInEnum("location.type")] else []
  }

  /** The document's fields after the constructor applied setters and
      defaults, before validation. */
  datatype CastFields = CastFields(
    storeID: Option<string>,
    storeName: Option<string>,
    takeOutInStore: bool,
    shippingTimeInDays: Option<int>,
    latitude: Option<real>,
    longitude: Option<real>,
    address1: Option<string>,
    address2: Option<string>,
    address3: Option<string>,
    city: Option<string>,
    district: Option<string>,
    state: Option<string>,
    kind: Option<string>,
    country: Option<string>,
    postalCode: Option<Result<string, string>>,
    telephoneNumber: Option<string>,
    emailAddress: Option<string>,
    location: Location)

  lemma DefaultCountryTrimmed()
    ensures Trim(DefaultCountry) == DefaultCountry
  {
    assert DefaultCountry[0] == 'B' && DefaultCountry[5] == 'l';
    TrimOfTrimmed(DefaultCountry);
  }

  /** `default: 'Brasil', trim: true`: an absent country takes the default,
      which the setter leaves as it is. */
  function CastCountry(country: Option<string>): (r: Option<string>)
    ensures IsOptionalText(r)
    ensures country.None? ==> r == Some(DefaultCountry)
    ensures country.Some? ==> r == Some(Trim(country.value))
  {
    DefaultCountryTrimmed();
    TrimOpt(if country.None? then Some(DefaultCountry) else country)
  }

  /** What the setters guarantee about every cast field. */
  predicate Normalised(c: CastFields) {
    && (c.state.Some? ==> Upper(c.state.value) == c.state.value && IsTrimmed(c.state.value))
    && (c.emailAddress.Some? ==> Lower(c.emailAddress.value) == c.emailAddress.value && IsTrimmed(c.emailAddress.value))
    && IsOptionalText(c.storeID)
    && IsOptionalText(c.storeName)
    && IsOptionalText(c.address1)
    && IsOptionalText(c.address2)
    && IsOptionalText(c.address3)
    && IsOptionalText(c.city)
    && IsOptionalText(c.district)
    && IsOptionalText(c.country)
    && IsOptionalText(c.telephoneNumber)
    && (c.postalCode.Some? && c.postalCode.value.Success? ==> IsCepDigits(c.postalCode.value.value))
  }

  /** Each cast name or address field is its given value trimmed, absent
      when not given. */
  predicate CastTexts(input: StoreInput, c: CastFields) {
    && c.storeID == (if input.storeID.Some? then Some(Trim(input.storeID.value)) else None)
    && c.storeName == (if input.storeName.Some? then Some(Trim(input.storeName.value)) else None)
    && c.address1 == (if input.address1.Some? then Some(Trim(input.address1.value)) else None)
    && c.address2 == (if input.address2.Some? then Some(Trim(input.address2.value)) else None)
    && c.address3 == (if input.address3.Some? then Some(Trim(input.address3.value)) else None)
    && c.city == (if input.city.Some? then Some(Trim(input.city.value)) else None)
    && c.district == (if input.district.Some? then Some(Trim(input.district.value)) else None)
    && (input.country.Some? ==> c.country == Some(Trim(input.country.value)))
    && c.telephoneNumber == (if input.telephoneNumber.Some? then Some(Trim(input.telephoneNumber.value)) else None)
  }

  /** State and type are trimmed and upper-cased, the e-mail trimmed and
      lower-cased; numbers and a given location are taken as given. */
  predicate CastCodes(input: StoreInput, c: CastFields) {
    && c.state == (if input.state.Some? then Some(Upper(Trim(input.state.value))) else None)
    && c.kind == (if input.kind.Some? then Some(Upper(Trim(input.kind.value))) else None)
    && c.emailAddress == (if input.emailAddress.Some? then Some(Lower(Trim(input.emailAddress.value))) else None)
    && c.shippingTimeInDays == input.shippingTimeInDays
    && c.latitude == input.latitude && c.longitude == input.longitude
    && (input.location.Some? ==> c.location == input.location.value)
  }

  /** The model constructor: setters on every supplied field, defaults for
      `takeOutInStore`, `country` and `location`. */
  function CastInput(input: StoreInput): (c: CastFields)
    ensures Normalised(c)
    ensures c.takeOutInStore == (input.takeOutInStore.None? || input.takeOutInStore.value)
    ensures input.country.None? ==> c.country == Some(DefaultCountry)
    ensures input.location.None? ==> c.location == DefaultLocation
    ensures input.postalCode.None? ==> c.postalCode.None?
    ensures input.postalCode.Some? ==> c.postalCode == Some(SetPostalCode(input.postalCode.value))
  {
    var c := CastFields(
      TrimOpt(input.storeID),
      TrimOpt(input.storeName),
      input.takeOutInStore.None? || input.takeOutInStore.value,
      input.shippingTimeInDays,
      input.latitude,
      input.longitude,
      TrimOpt(input.address1),
      TrimOpt(input.address2),
      TrimOpt(input.address3),
      TrimOpt(input.city),
      TrimOpt(input.district),
      UpperTrimOpt(input.state),
      UpperTrimOpt(input.kind),
      CastCountry(input.country),
      CastPostalCode(input.postalCode),
      TrimOpt(input.telephoneNumber),
      LowerTrimOpt(input.emailAddress),
      if input.location.None? then DefaultLocation else input.location.value);
    c
  }

  /** Every field the input supplies reaches the cast in its normal form. */
  lemma CastNormalisesGivenFields(input: StoreInput)
    ensures CastTexts(input, CastInput(input))
    ensures CastCodes(input, CastInput(input))
  {
    var c := CastInput(input);
    TrimmedTextsAreCast(input, c);
    CaseMappedCodesAreCast(input, c);
  }

  lemma TrimmedTextsAreCast(input: StoreInput, c: CastFields)
    requires && c.storeID == TrimOpt(input.storeID) && c.storeName == TrimOpt(input.storeName)
             && c.address1 == TrimOpt(input.address1) && c.address2 == TrimOpt(input.address2)
             && c.address3 == TrimOpt(input.address3) && c.city == TrimOpt(input.city)
             && c.district == TrimOpt(input.district) && c.telephoneNumber == TrimOpt(input.telephoneNumber)
             && (input.country.Some? ==> c.country == TrimOpt(input.country))
    ensures CastTexts(input, c)
  {
  }

  lemma CaseMappedCodesAreCast(input: StoreInput, c: CastFields)
    requires && c.state == UpperTrimOpt(input.state) && c.kind == UpperTrimOpt(input.kind)
             && c.emailAddress == LowerTrimOpt(input.emailAddress)
             && c.shippingTimeInDays == input.shippingTimeInDays
             && c.latitude == input.latitude && c.longitude == input.longitude
             && (input.location.Some? ==> c.location == input.location.value)
    ensures CastCodes(input, c)
  {
  }

  /** Every failing validator, in schema path order. */
  function Validate(c: CastFields): seq<SchemaError> {
    CheckRequired("storeID", c.storeID)
    + CheckRequired("storeName", c.storeName)
    + CheckLeadTime(c.shippingTimeInDays)
    + CheckRange("latitude", c.latitude, -90.0, 90.0)
    + CheckRange("longitude", c.longitude, -180.0, 180.0)
    + CheckRequired("address1", c.address1)
    + CheckRequired("city", c.city)
    + CheckRequired("district", c.district)
    + CheckState(c.state)
    + CheckKind(c.kind)
    + CheckRequired("country", c.country)
    + CheckPostalCode(c.postalCode)
    + CheckTelephone(c.telephoneNumber)
    + CheckEmail(c.emailAddress)
    + CheckLocation(c.location)
  }

  /** Each validator passes. */
  predicate Passes(c: CastFields) {
    && CheckRequired("storeID", c.storeID) == []
    && CheckRequired("storeName", c.storeName) == []
    && CheckLeadTime(c.shippingTimeInDays) == []
    && CheckRange("latitude", c.latitude, -90.0, 90.0) == []
    && CheckRange("longitude", c.longitude, -180.0, 180.0) == []
    && CheckRequired("address1", c.address1) == []
    && CheckRequired("city", c.city) == []
    && CheckRequired("district", c.district) == []
    && CheckState(c.state) == []
    && CheckKind(c.kind) == []
    && CheckRequired("country", c.country) == []
    && CheckPostalCode(c.postalCode) == []
    && CheckTelephone(c.telephoneNumber) == []
    && CheckEmail(c.emailAddress) == []
    && CheckLocation(c.location) == []
  }

  /** No error is reported exactly when every validator passes. */
  lemma ValidateEmptyIffPasses(c: CastFields)
    ensures Validate(c) == [] <==> Passes(c)
  {
  }

  /** The document a passing cast describes. */
  function Build(c: CastFields): (s: Store)
    requires Passes(c)
    requires Normalised(c)
    ensures WellFormed(s)
    ensures s.takeOutInStore == c.takeOutInStore && s.country == c.country.value
    ensures s.location == c.location && s.postalCode == c.postalCode.value.value
  {
    Store(
      c.storeID.value, c.storeName.value, c.takeOutInStore, c.shippingTimeInDays.value,
      c.latitude.value, c.longitude.value,
      c.address1.value, c.address2, c.address3,
      c.city.value, c.district.value, c.state.value, c.kind.value, c.country.value,
      c.postalCode.value.value, c.telephoneNumber, c.emailAddress, c.location)
  }

  /** Validation of a cast document: it is saved exactly when no
      validator fails. */
  function Admit(c: CastFields): (r: Result<Store, seq<SchemaError>>)
    requires Normalised(c)
    ensures r.Success? <==> Passes(c)
    ensures r.Success? ==> WellFormed(r.value)
    ensures r.Success? ==> r.value.takeOutInStore == c.takeOutInStore && r.value.country == c.country.value
    ensures r.Success? ==> r.value.location == c.location && r.value.postalCode == c.postalCode.value.value
    ensures r.Failure? ==> r.error == Validate(c) && r.error != []
    ensures r.Success? ==> FieldsOf(r.value) == c
  {
    var errors := Validate(c);
    ValidateEmptyIffPasses(c);
    if errors != [] then Failure(errors) else Success(Build(c))
  }

  /** Building a document from `input` and validating it: a saved document
      satisfies every schema invariant and stores the digits of the postal
      code it was given. */
  function Create(input: StoreInput): (r: Result<Store, seq<SchemaError>>)
    ensures r.Success? ==> WellFormed(r.value)
    ensures r.Failure? ==> r.error != []
    ensures r.Success? ==> input.postalCode.Some? && r.value.postalCode == StripNonDigits(input.postalCode.value)
  {
    Admit(CastInput(input))
  }

  /** A created document holds the given values after the setters: names,
      city and district trimmed, state and type trimmed and upper-cased,
      numbers as given. */
  lemma CreateKeepsGivenFields(input: StoreInput)
    requires Create(input).Success?
    ensures var s := Create(input).value;
      && input.storeID.Some? && s.storeID == Trim(input.storeID.value)
      && input.storeName.Some? && s.storeName == Trim(input.storeName.value)
      && input.city.Some? && s.city == Trim(input.city.value)
      && input.district.Some? && s.district == Trim(input.district.value)
      && input.address1.Some? && s.address1 == Trim(input.address1.value)
  {
    var c := CreatedFromCast(input);
    TextsOfCast(input, c, Create(input).value);
  }

  /** The fields that decide delivery: state and type are the given values
      trimmed and upper-cased; lead time and position are as given. */
  lemma CreateKeepsDeliveryFields(input: StoreInput)
    requires Create(input).Success?
    ensures var s := Create(input).value;
      && input.state.Some? && s.state == Upper(Trim(input.state.value))
      && input.kind.Some? && s.kind == Upper(Trim(input.kind.value))
      && input.shippingTimeInDays == Some(s.shippingTimeInDays)
      && input.latitude == Some(s.latitude) && input.longitude == Some(s.longitude)
  {
    var c := CreatedFromCast(input);
    CodesOfCast(input, c, Create(input).value);
  }

  lemma TextsOfCast(input: StoreInput, c: CastFields, s: Store)
    requires CastTexts(input, c) && FieldsOf(s) == c
    ensures && input.storeID.Some? && s.storeID == Trim(input.storeID.value)
            && input.storeName.Some? && s.storeName == Trim(input.storeName.value)
            && input.city.Some? && s.city == Trim(input.city.value)
            && input.district.Some? && s.district == Trim(input.district.value)
            && input.address1.Some? && s.address1 == Trim(input.address1.value)
  {
    assert c.storeID == Some(s.storeID) && c.storeName == Some(s.storeName);
    assert c.city == Some(s.city) && c.district == Some(s.district) && c.address1 == Some(s.address1);
  }

  lemma CodesOfCast(input: StoreInput, c: CastFields, s: Store)
    requires CastCodes(input, c) && FieldsOf(s) == c
    ensures && input.state.Some? && s.state == Upper(Trim(input.state.value))
            && input.kind.Some? && s.kind == Upper(Trim(input.kind.value))
            && input.shippingTimeInDays == Some(s.shippingTimeInDays)
            && input.latitude == Some(s.latitude) && input.longitude == Some(s.longitude)
  {
    assert c.state == Some(s.state) && c.kind == Some(s.kind);
    assert c.shippingTimeInDays == Some(s.shippingTimeInDays);
    assert c.latitude == Some(s.latitude) && c.longitude == Some(s.longitude);
  }

  /** A created document is the one its cast fields describe. */
  lemma CreatedFromCast(input: StoreInput) returns (c: CastFields)
    requires Create(input).Success?
    ensures c == CastInput(input)
    ensures CastTexts(input, c) && CastCodes(input, c)
    ensures FieldsOf(Create(input).value) == c
  {
    c := CastInput(input);
    CastNormalisesGivenFields(input);
    assert Create(input) == Admit(c);
  }

  /** A missing postal code, or one that does not hold exactly eight digits,
      makes creation fail, and the failure is reported under `postalCode`. */
  lemma CreateRejectsBadPostalCode(input: StoreInput)
    requires input.postalCode.None? || |StripNonDigits(input.postalCode.value)| != 8
    ensures Create(input).Failure?
    ensures input.postalCode.None? ==> Required("postalCode") in Create(input).error
    ensures input.postalCode.Some? ==> CastFailed("postalCode", InvalidCepMessage) in Create(input).error
  {
    var c := CastInput(input);
    assert Create(input) == Admit(c);
    assert CheckPostalCode(c.postalCode) != [];
    assert CheckPostalCode(c.postalCode)[0] in Validate(c);
  }

  /** Absent `takeOutInStore`, `country` and `location` take their schema
      defaults: true, "Brasil" and the point [0, 0]. */
  lemma CreateDefaults(input: StoreInput)
    requires Create(input).Success?
    ensures input.takeOutInStore.None? ==> Create(input).value.takeOutInStore
    ensures input.takeOutInStore.Some? ==> Create(input).value.takeOutInStore == input.takeOutInStore.value
    ensures input.country.None? ==> Create(input).value.country == DefaultCountry
    ensures input.location.None? ==> Create(input).value.location == DefaultLocation
  {
    var c := CastInput(input);
    assert Create(input) == Admit(c);
  }

  /** The constructor input that re-creates a stored document field by
      field. */
  function InputOf(s: Store): StoreInput {
    StoreInput(
      Some(s.storeID), Some(s.storeName), Some(s.takeOutInStore), Some(s.shippingTimeInDays),
      Some(s.latitude), Some(s.longitude),
      Some(s.address1), s.address2, s.address3,
      Some(s.city), Some(s.district), Some(s.state), Some(s.kind), Some(s.country),
      Some(s.postalCode), s.telephoneNumber, s.emailAddress, Some(s.location))
  }

  lemma KindIsUpper(k: string)
    requires IsStoreKind(k)
    ensures Upper(Trim(k)) == k
  {
    KindIsTrimmedCapitals(k);
    UpperTrimOfCapitals(k);
  }

  lemma KindIsTrimmedCapitals(k: string)
    requires IsStoreKind(k)
    ensures IsTrimmed(k)
    ensures forall i :: 0 <= i < |k| ==> 'A' <= k[i] <= 'Z'
  {
    if k == "PDV" {
      assert k == ['P', 'D', 'V'];
    } else {
      assert k == ['L', 'O', 'J', 'A'];
    }
  }

  lemma UpperTrimOfCapitals(k: string)
    requires IsTrimmed(k)
    requires forall i :: 0 <= i < |k| ==> 'A' <= k[i] <= 'Z'
    ensures Upper(Trim(k)) == k
  {
    TrimOfTrimmed(k);
  }


  lemma TrimOptOfTrimmed(o: Option<string>)
    requires IsOptionalText(o)
    ensures TrimOpt(o) == o
  {
    if o.Some? {
      TrimOfTrimmed(o.value);
    }
  }

  lemma CastKeepsNames(s: Store)
    requires WellFormed(s)
    ensures var c := CastInput(InputOf(s));
      && c.storeID == Some(s.storeID) && c.storeName == Some(s.storeName)
      && c.address1 == Some(s.address1) && c.address2 == s.address2 && c.address3 == s.address3
  {
    TrimOptOfTrimmed(Some(s.storeID));
    TrimOptOfTrimmed(Some(s.storeName));
    TrimOptOfTrimmed(Some(s.address1));
    TrimOptOfTrimmed(s.address2);
    TrimOptOfTrimmed(s.address3);
  }

  lemma CastKeepsPlace(s: Store)
    requires WellFormed(s)
    ensures var c := CastInput(InputOf(s));
      && c.city == Some(s.city) && c.district == Some(s.district)
      && c.state == Some(s.state) && c.country == Some(s.country)
  {
    TrimOptOfTrimmed(Some(s.city));
    TrimOptOfTrimmed(Some(s.district));
    TrimOptOfTrimmed(Some(s.country));
    TrimOfTrimmed(s.state);
  }

  lemma CastKeepsKindAndNumbers(s: Store)
    requires WellFormed(s)
    ensures var c := CastInput(InputOf(s));
      && c.kind == Some(s.kind) && c.takeOutInStore == s.takeOutInStore
      && c.shippingTimeInDays == Some(s.shippingTimeInDays)
      && c.latitude == Some(s.latitude) && c.longitude == Some(s.longitude)
      && c.location == s.location
  {
    KindIsUpper(s.kind);
  }

  lemma CastKeepsContacts(s: Store)
    requires WellFormed(s)
    ensures var c := CastInput(InputOf(s));
      && c.postalCode == Some(Success(s.postalCode))
      && c.telephoneNumber == s.telephoneNumber && c.emailAddress == s.emailAddress
  {
    TrimOptOfTrimmed(s.telephoneNumber);
    if s.emailAddress.Some? {
      TrimOfTrimmed(s.emailAddress.value);
    }
    StripNonDigitsFixesDigits(s.postalCode);
  }

  /** The setters and defaults leave a well-formed document's fields as
      they are. */
  lemma CastOfWellFormed(s: Store)
    requires WellFormed(s)
    ensures CastInput(InputOf(s)) == FieldsOf(s)
  {
    CastKeepsNames(s);
    CastKeepsPlace(s);
    CastKeepsKindAndNumbers(s);
    CastKeepsContacts(s);
  }

  /** The cast fields of a stored document. */
  function FieldsOf(s: Store): CastFields {
    CastFields(
      Some(s.storeID), Some(s.storeName), s.takeOutInStore, Some(s.shippingTimeInDays),
      Some(s.latitude), Some(s.longitude),
      Some(s.address1), s.address2, s.address3,
      Some(s.city), Some(s.district), Some(s.state), Some(s.kind), Some(s.country),
      Some(Success(s.postalCode)), s.telephoneNumber, s.emailAddress, s.location)
  }

  lemma WellFormedPasses(s: Store)
    requires WellFormed(s)
    ensures Passes(FieldsOf(s)) && Normalised(FieldsOf(s))
  {
  }

  /** Round trip: re-creating a well-formed document from its own fields
      passes every validator and yields the same document. */
  lemma CreateAcceptsWellFormed(s: Store)
    requires WellFormed(s)
    ensures Create(InputOf(s)) == Success(s)
  {
    CastOfWellFormed(s);
    WellFormedPasses(s);
    var c := FieldsOf(s);
    assert CastInput(InputOf(s)) == c;
    assert Admit(c).Success?;
    assert Build(c) == s;
  }

  // ---------------------------------------------------------------------
  // Pre-save hook
  // ---------------------------------------------------------------------

  /** The pre-save hook: when latitude or longitude changed, the GeoJSON
      coordinates are rewritten as `[longitude, latitude]`; the rest of the
      document is untouched. */
  function PreSave(doc: Store, latitudeModified: bool, longitudeModified: bool): (r: Store)
    ensures latitudeModified || longitudeModified ==>
      r.location.coordinates.0 == doc.longitude && r.location.coordinates.1 == doc.latitude
    ensures !(latitudeModified || longitudeModified) ==> r == doc
    ensures r.location.kind == doc.location.kind
    ensures r == doc.(location := r.location)
  {
    if latitudeModified || longitudeModified then
      doc.(location := doc.location.(coordinates := (doc.longitude, doc.latitude)))
    else
      doc
  }

  /** The hook keeps every schema invariant. */
  lemma PreSaveKeepsWellFormed(doc: Store, latitudeModified: bool, longitudeModified: bool)
    requires WellFormed(doc)
    ensures WellFormed(PreSave(doc, latitudeModified, longitudeModified))
  {
  }

  /** Saving a new document: validation, then the pre-save hook. On a new
      document every supplied path counts as modified, and latitude and
      longitude are required, so a saved document's location always holds
      `[longitude, latitude]`. */
  function SaveNew(input: StoreInput): (r: Result<Store, seq<SchemaError>>)
    ensures r.Success? ==> WellFormed(r.value)
    ensures r.Success? ==> r.value.location.coordinates == (r.value.longitude, r.value.latitude)
    ensures r.Success? ==> Create(input).Success? && r.value == Create(input).value.(location := r.value.location)
    ensures r.Failure? <==> Create(input).Failure?
  {
    match Create(input)
    case Failure(errors) => Failure(errors)
    case Success(doc) =>
      PreSaveKeepsWellFormed(doc, input.latitude.Some?, input.longitude.Some?);
      Success(PreSave(doc, input.latitude.Some?, input.longitude.Some?))
  }
}

=== FILE: stores_service.dfy ===
/** The `GET stores/cep/:cep` pipeline (`StoresService.findByCep`): the
    postal code is reduced to digits, its state resolved, the stores of that
    state loaded, each store resolved on its own (distance lookup, regime,
    delivery options), stores whose distance lookup failed dropped, and the
    survivors packaged with map pins. Outside calls are parameters. */
module StoresService {
  import opened Wrappers
  import opened Text
  import opened DeliveryPolicy
  import opened StoreEntity
  import MelhorEnvio
  import opened ShippingOptions

  // ---------------------------------------------------------------------
  // Collaborators and results
  // ---------------------------------------------------------------------

  /** One distance-matrix element: status, driving distance in metres and
      the human-readable duration. */
  datatype DistanceElement = DistanceElement(status: string, meters: nat, durationText: string)

  /** The distance-matrix call: a reply whose first row has a first element
      (or not), or a failure (top-level status not OK, network error). */
  datatype DistanceReply = Matrix(element: Option<DistanceElement>) | MatrixFailed

  /** The address lookup: the state (`uf`) of the postal code, or failure. */
  datatype AddressReply = Address(uf: string) | AddressFailed

  /** The stores collection, in natural order, or a database failure. */
  datatype CatalogueReply = Documents(stores: seq<Store>) | CatalogueFailed

  datatype Collaborators = Collaborators(
    address: string -> AddressReply,
    catalogue: CatalogueReply,
    distance: (string, string) -> DistanceReply,
    carrier: (string, string) -> MelhorEnvio.HttpReply)

  datatype Position = Position(lat: real, lng: real)

  /** One entry of `stores` in the response. */
  datatype StoreResult = StoreResult(
    name: string,
    city: string,
    postalCode: string,
    kind: string,
    distance: string,
    duration: Option<string>,
    value: seq<DeliveryOption>,
    position: Position)

  datatype Pin = Pin(position: Position, title: string)

  datatype Response = Response(stores: seq<StoreResult>, pins: seq<Pin>, limit: nat, offset: nat, total: nat)

  /** The HTTP error `findByCep` raises. */
  datatype ServiceError = ServiceError(status: nat, message: string)

  const SearchFailed: ServiceError := ServiceError(500, "Erro ao buscar lojas")

  // ---------------------------------------------------------------------
  // Per-store steps
  // ---------------------------------------------------------------------

  /** `findStoresByState`: the documents whose state equals the upper-cased
      `uf`, in collection order. */
  function FindStoresByState(docs: seq<Store>, uf: string): (r: seq<Store>)
    ensures |r| <= |docs|
    ensures forall i :: 0 <= i < |r| ==> r[i] in docs && r[i].state == Upper(uf)
    ensures forall d :: d in docs && d.state == Upper(uf) ==> d in r
  {
    if docs == [] then []
    else if docs[0].state == Upper(uf) then [docs[0]] + FindStoresByState(docs[1..], uf)
    else FindStoresByState(docs[1..], uf)
  }

  /** `calculateRealDistance`: the first element, accepted only with status
      "OK"; every other outcome throws. */
  function CalculateRealDistance(reply: DistanceReply): (r: Result<DistanceElement, string>)
    ensures r.Success? <==> reply.Matrix? && reply.element.Some? && reply.element.value.status == "OK"
    ensures r.Success? ==> r.value == reply.element.value
  {
    match reply
    case MatrixFailed => Failure("Google Maps API error")
    case Matrix(None) => Failure("Cannot read properties of undefined")
    case Matrix(Some(e)) =>
      if e.status != "OK" then Failure("Status do cálculo de distância: " + e.status) else Success(e)
  }

  /** `isValidPDV`: a PDV store no farther than the courier radius. */
  predicate IsValidPdv(store: Store, distanceMeters: nat) {
    store.kind == "PDV" && distanceMeters <= PdvMaxRadiusKm * 1000
  }

  /** The radius is inclusive: 50 000 m is local, 50 001 m is not. */
  lemma PdvRadiusBoundary(store: Store)
    requires store.kind == "PDV"
    ensures IsValidPdv(store, 50000)
    ensures !IsValidPdv(store, 50001)
  {
  }

  /** `isValidPDV` holds exactly for a PDV store within 50 000 m. */
  lemma IsValidPdvIff(store: Store, distanceMeters: nat)
    ensures IsValidPdv(store, distanceMeters) <==> store.kind == "PDV" && distanceMeters <= PdvMaxRadiusMeters()
  {
  }

  /** The distance in tenths of a kilometre, rounded to the nearest tenth
      (half up): the displayed value is within 50 m of the true one. */
  function RoundedTenthsOfKm(meters: nat): (t: nat)
    ensures 100 * t <= meters + 50 < 100 * t + 100
  {
    (meters + 50) / 100
  }

  /** `${(meters / 1000).toFixed(1)} km` */
  function DistanceText(meters: nat): (r: string)
    ensures |r| > 5 && r[|r| - 3..] == " km" && r[|r| - 5] == '.'
  {
    var r := FixedOne(RoundedTenthsOfKm(meters)) + " km";
    assert r[|r| - 3..] == " km";
    r
  }

  /** The distance text shows the rounded tenths of a kilometre, and before
      ".d km" stands the canonical numeral of the whole kilometres. */
  lemma DistanceTextCanonical(meters: nat)
    ensures ShowsAmount(DistanceText(meters), RoundedTenthsOfKm(meters))
    ensures var r := DistanceText(meters);
      IsNumeral(r[..|r| - 5]) && ParseNat(r[..|r| - 5]) == RoundedTenthsOfKm(meters) / 10
  {
    var km := " km";
    var fixed := FixedOne(RoundedTenthsOfKm(meters));
    FixedOneCanonical(RoundedTenthsOfKm(meters));
    assert NoAmountChars(km) by {
      assert km == [' ', 'k', 'm'];
    }
    ShowsAmountSuffixed(fixed, km, RoundedTenthsOfKm(meters));
    var r := fixed + km;
    assert DistanceText(meters) == r;
    assert r[..|r| - 5] == fixed[..|fixed| - 2];
  }

  /** `mapToStoreResponse`: the store's display fields, no distance yet and
      no options; `postalCode` is read through the schema getter. */
  function MapToStoreResponse(store: Store): (r: StoreResult)
    ensures r.name == store.storeName && r.city == store.city && r.kind == store.kind
    ensures r.position == Position(store.latitude, store.longitude)
    ensures r.postalCode == DisplayPostalCode(store.postalCode)
    ensures r.distance == [] && r.duration.None? && r.value == []
  {
    StoreResult(store.storeName, store.city, DisplayPostalCode(store.postalCode), store.kind, "", None, [],
      Position(store.latitude, store.longitude))
  }

  /** `buildStoreResponse`: distance and duration from the matrix element,
      then the options of the store's regime. A local PDV gets the courier
      option; otherwise a LOJA gets carrier options for the pair (origin,
      store postal code as the getter shows it); any other store gets none. */
  function BuildStoreResponse(store: Store, element: DistanceElement, origin: string,
                              carrier: (string, string) -> MelhorEnvio.HttpReply): (r: StoreResult)
    ensures r == MapToStoreResponse(store).(distance := r.distance, duration := r.duration, value := r.value)
    ensures r.distance == DistanceText(element.meters) && r.duration == Some(element.durationText)
    ensures IsValidPdv(store, element.meters) ==> r.value == [PdvOption(store.shippingTimeInDays)]
    ensures !IsValidPdv(store, element.meters) && store.kind == "LOJA" ==>
      r.value == GetShippingOptions(origin, DisplayPostalCode(store.postalCode), carrier)
    ensures !IsValidPdv(store, element.meters) && store.kind != "LOJA" ==> r.value == []
  {
    var base := MapToStoreResponse(store).(
      distance := DistanceText(element.meters),
      duration := Some(element.durationText));
    if IsValidPdv(store, element.meters) then
      base.(value := [PdvOption(store.shippingTimeInDays)])
    else if store.kind == "LOJA" then
      base.(value := GetShippingOptions(origin, DisplayPostalCode(store.postalCode), carrier))
    else
      base
  }

  /** The per-store task inside `Promise.all`: a failed distance lookup is
      caught and turns the store into `null`. */
  function ProcessStore(store: Store, origin: string, env: Collaborators): (r: Option<StoreResult>)
    ensures r.None? <==> CalculateRealDistance(env.distance(origin, DisplayPostalCode(store.postalCode))).Failure?
  {
    match CalculateRealDistance(env.distance(origin, DisplayPostalCode(store.postalCode)))
    case Failure(_) => None
    case Success(element) => Some(BuildStoreResponse(store, element, origin, env.carrier))
  }

  /** `stores.map(...)` under `Promise.all`, which keeps input order. */
  function ProcessAll(stores: seq<Store>, origin: string, env: Collaborators): (r: seq<Option<StoreResult>>)
    ensures |r| == |stores|
    ensures forall i :: 0 <= i < |stores| ==> r[i] == ProcessStore(stores[i], origin, env)
  {
    Map(stores, store => ProcessStore(store, origin, env))
  }

  /** `.filter(store => store !== null)`. */
  function DropNulls(rs: seq<Option<StoreResult>>): (r: seq<StoreResult>)
    ensures |r| <= |rs|
    ensures forall i :: 0 <= i < |r| ==> Some(r[i]) in rs
    ensures forall o :: o in rs && o.Some? ==> o.value in r
  {
    if rs == [] then []
    else if rs[0].None? then DropNulls(rs[1..])
    else [rs[0].value] + DropNulls(rs[1..])
  }

  /** The pins: one per result, at its position, titled with its name. */
  function PinsOf(stores: seq<StoreResult>): (pins: seq<Pin>)
    ensures |pins| == |stores|
    ensures forall i :: 0 <= i < |stores| ==> pins[i] == Pin(stores[i].position, stores[i].name)
  {
    if stores == [] then [] else [Pin(stores[0].position, stores[0].name)] + PinsOf(stores[1..])
  }

  /** `buildFinalResponse`: the results, their pins one-to-one, and the
      counters all equal to the number of results except `offset`, which is
      always 0. */
  function BuildFinalResponse(stores: seq<StoreResult>): (r: Response)
    ensures r.stores == stores
    ensures |r.pins| == |r.stores|
    ensures forall i :: 0 <= i < |r.stores| ==>
      r.pins[i].position == r.stores[i].position && r.pins[i].title == r.stores[i].name
    ensures r.limit == |stores| && r.total == |stores| && r.offset == 0
  {
    Response(stores, PinsOf(stores), |stores|, 0, |stores|)
  }

  // ---------------------------------------------------------------------
  // The request
  // ---------------------------------------------------------------------

  /** `findByCep(cep)`. Only a failed address lookup or catalogue read fails
      the request, always with the same 500 error; per-store failures never
      do. */
  function FindByCep(cep: string, env: Collaborators): (r: Result<Response, ServiceError>)
    ensures r.Failure? <==> env.address(StripNonDigits(cep)).AddressFailed? || env.catalogue.CatalogueFailed?
    ensures r.Failure? ==> r.error == SearchFailed
    ensures r.Success? ==> |r.value.pins| == |r.value.stores| && r.value.offset == 0
    ensures r.Success? ==> r.value.limit == |r.value.stores| && r.value.total == |r.value.stores|
  {
    var formattedCep := StripNonDigits(cep);
    match env.address(formattedCep)
    case AddressFailed => Failure(SearchFailed)
    case Address(uf) =>
      match env.catalogue
      case CatalogueFailed => Failure(SearchFailed)
      case Documents(docs) =>
        var stores := FindStoresByState(docs, uf);
        Success(BuildFinalResponse(DropNulls(ProcessAll(stores, formattedCep, env))))
  }

  // ---------------------------------------------------------------------
  // Reference: the survivors are the reachable stores, in catalogue order
  // ---------------------------------------------------------------------

  /** The store's distance lookup succeeds. */
  predicate Reachable(store: Store, origin: string, env: Collaborators) {
    CalculateRealDistance(env.distance(origin, DisplayPostalCode(store.postalCode))).Success?
  }

  /** The stores whose distance lookup succeeds, in order. */
  function ReachableStores(stores: seq<Store>, origin: string, env: Collaborators): (r: seq<Store>)
    ensures |r| <= |stores|
    ensures forall i :: 0 <= i < |r| ==> Reachable(r[i], origin, env) && r[i] in stores
    ensures forall s :: s in stores && Reachable(s, origin, env) ==> s in r
  {
    if stores == [] then []
    else if Reachable(stores[0], origin, env) then [stores[0]] + ReachableStores(stores[1..], origin, env)
    else ReachableStores(stores[1..], origin, env)
  }

  /** A reachable store's result. */
  function ResultOf(store: Store, origin: string, env: Collaborators): StoreResult
    requires Reachable(store, origin, env)
  {
    var element := env.distance(origin, DisplayPostalCode(store.postalCode)).element.value;
    BuildStoreResponse(store, element, origin, env.carrier)
  }

  /** The results of the reachable stores, in order. */
  function ResultsOf(stores: seq<Store>, origin: string, env: Collaborators): (r: seq<StoreResult>)
    requires forall i :: 0 <= i < |stores| ==> Reachable(stores[i], origin, env)
    ensures |r| == |stores|
  {
    if stores == [] then [] else [ResultOf(stores[0], origin, env)] + ResultsOf(stores[1..], origin, env)
  }

  /** Failure isolation: mapping every store and dropping the nulls gives
      exactly the reachable stores' results, in catalogue order; an
      unreachable store removes itself and nothing else. */
  lemma {:induction false} SurvivorsAreReachableStores(stores: seq<Store>, origin: string, env: Collaborators)
    ensures DropNulls(ProcessAll(stores, origin, env)) == ResultsOf(ReachableStores(stores, origin, env), origin, env)
  {
    if stores != [] {
      SurvivorsAreReachableStores(stores[1..], origin, env);
      assert ProcessAll(stores, origin, env)[1..] == ProcessAll(stores[1..], origin, env);
    }
  }

  /** The stores of a successful request are the reachable stores of the
      requested state, each resolved against the digits of the requested
      postal code, in catalogue order. */
  lemma FindByCepStores(cep: string, env: Collaborators)
    requires env.address(StripNonDigits(cep)).Address? && env.catalogue.Documents?
    ensures var origin := StripNonDigits(cep);
      var candidates := FindStoresByState(env.catalogue.stores, env.address(origin).uf);
      FindByCep(cep, env) == Success(BuildFinalResponse(ResultsOf(ReachableStores(candidates, origin, env), origin, env)))
  {
    var origin := StripNonDigits(cep);
    SurvivorsAreReachableStores(FindStoresByState(env.catalogue.stores, env.address(origin).uf), origin, env);
  }

  // ---------------------------------------------------------------------
  // Regimes
  // ---------------------------------------------------------------------

  /** The regimes do not mix: a result holds an option without a product
      code (the courier option) exactly when the store is a PDV within the
      radius, and then that is its only option. */
  lemma CourierOptionIffLocal(store: Store, element: DistanceElement, origin: string,
                              carrier: (string, string) -> MelhorEnvio.HttpReply)
    ensures var r := BuildStoreResponse(store, element, origin, carrier);
      (exists i :: 0 <= i < |r.value| && r.value[i].productCode.None?) <==> IsValidPdv(store, element.meters)
    ensures IsValidPdv(store, element.meters) ==> |BuildStoreResponse(store, element, origin, carrier).value| == 1
  {
    var r := BuildStoreResponse(store, element, origin, carrier);
    if IsValidPdv(store, element.meters) {
      assert r.value[0].productCode.None?;
    } else if store.kind == "LOJA" {
      CarrierOptionsCoded(origin, DisplayPostalCode(store.postalCode), carrier);
    }
  }

  /** The carrier is asked about exactly one pair: the digits of the origin
      and the store's stored eight-digit postal code (the hyphen the getter
      adds is stripped again by the client). Two carrier endpoints that agree
      on that pair give the same result. */
  lemma CarrierSeesStoredPostalCode(store: Store, element: DistanceElement, origin: string,
                                    c1: (string, string) -> MelhorEnvio.HttpReply,
                                    c2: (string, string) -> MelhorEnvio.HttpReply)
    requires IsCepDigits(store.postalCode)
    requires c1(StripNonDigits(origin), store.postalCode) == c2(StripNonDigits(origin), store.postalCode)
    ensures BuildStoreResponse(store, element, origin, c1) == BuildStoreResponse(store, element, origin, c2)
  {
    var destination := DisplayPostalCode(store.postalCode);
    StripNonDigitsFixesDigits(store.postalCode);
    MelhorEnvio.QuotesDependOnPairOnly(origin, destination, c1, c2);
    assert GetShippingOptions(origin, destination, c1) == GetShippingOptions(origin, destination, c2);
    ResponseDependsOnOptions(store, element, origin, c1, c2);
  }

  lemma ResponseDependsOnOptions(store: Store, element: DistanceElement, origin: string,
                                 c1: (string, string) -> MelhorEnvio.HttpReply,
                                 c2: (string, string) -> MelhorEnvio.HttpReply)
    requires GetShippingOptions(origin, DisplayPostalCode(store.postalCode), c1)
          == GetShippingOptions(origin, DisplayPostalCode(store.postalCode), c2)
    ensures BuildStoreResponse(store, element, origin, c1) == BuildStoreResponse(store, element, origin, c2)
  {
  }

  // ---------------------------------------------------------------------
  // Worked cases
  // ---------------------------------------------------------------------

  lemma DistanceTextOf1Km()
    ensures DistanceText(1000) == "1.0 km"
  {
    assert RoundedTenthsOfKm(1000) == 10;
    FixedOneOf10();
  }

  /** A one-day PDV store anywhere within the radius gets exactly the single
      courier option "1 dia útil" at "R$ 15.00"; at 1 000 m it shows
      "1.0 km". */
  lemma NearbyPdvCase(store: Store, element: DistanceElement, origin: string,
                      carrier: (string, string) -> MelhorEnvio.HttpReply)
    requires store.kind == "PDV" && store.shippingTimeInDays == 1
    requires element.meters <= PdvMaxRadiusMeters()
    ensures BuildStoreResponse(store, element, origin, carrier).value
      == [DeliveryOption("1 dia útil", "R$ 15.00", "Motoboy", None, None)]
    ensures element.meters == 1000 ==> BuildStoreResponse(store, element, origin, carrier).distance == "1.0 km"
  {
    PdvOptionForOneDay();
    DistanceTextOf1Km();
  }

  /** A LOJA store whose carrier answers Sedex at 27.00 in 2 days and PAC at
      25.50 in 6 days, both by Correios: these are the tiers' default
      values, so the store lists the same two texts as the fallback pair. */
  lemma LiveTierQuotesCase(store: Store, element: DistanceElement, origin: string,
                           carrier: (string, string) -> MelhorEnvio.HttpReply)
    requires store.kind == "LOJA" && IsCepDigits(store.postalCode)
    requires MelhorEnvio.IsValidCep(StripNonDigits(origin))
    requires carrier(StripNonDigits(origin), store.postalCode) == MelhorEnvio.Reply(MelhorEnvio.JsonArray([
      MelhorEnvio.QuoteObject(MelhorEnvio.RawQuote("", MelhorEnvio.NameText("Sedex"), MelhorEnvio.Number(2700),
        MelhorEnvio.Number(2), Some(MelhorEnvio.RawCompany(Some("Correios"))))),
      MelhorEnvio.QuoteObject(MelhorEnvio.RawQuote("", MelhorEnvio.NameText("PAC"), MelhorEnvio.Number(2550),
        MelhorEnvio.Number(6), Some(MelhorEnvio.RawCompany(Some("Correios")))))]))
    ensures BuildStoreResponse(store, element, origin, carrier).value == [
      DeliveryOption("2 dias úteis", "R$ 27.00", Sedex.description, Some("Correios"), Some("04014")),
      DeliveryOption("6 dias úteis", "R$ 25.50", Pac.description, Some("Correios"), Some("04510"))]
  {
    var destination := DisplayPostalCode(store.postalCode);
    StripNonDigitsFixesDigits(store.postalCode);
    assert StripNonDigits(destination) == store.postalCode;
    MelhorEnvio.ValidCepIffEightDigits(store.postalCode);
    var a := MelhorEnvio.RawQuote("", MelhorEnvio.NameText("Sedex"), MelhorEnvio.Number(2700),
      MelhorEnvio.Number(2), Some(MelhorEnvio.RawCompany(Some("Correios"))));
    var b := MelhorEnvio.RawQuote("", MelhorEnvio.NameText("PAC"), MelhorEnvio.Number(2550),
      MelhorEnvio.Number(6), Some(MelhorEnvio.RawCompany(Some("Correios"))));
    MelhorEnvio.PairReplySanitised(origin, destination, carrier, a, b);
    var sedex, pac := MelhorEnvio.SanitiseQuote(a), MelhorEnvio.SanitiseQuote(b);
    ShippingOptionsCases(origin, destination, carrier);
    DefaultValuedQuotes(sedex, pac);
    DefaultShippingOptionsText();
  }

  /** A LOJA store whose carrier rejects the token (401): the fallback pair. */
  lemma RejectedTokenCase(store: Store, element: DistanceElement, origin: string,
                          carrier: (string, string) -> MelhorEnvio.HttpReply)
    requires store.kind == "LOJA" && IsCepDigits(store.postalCode)
    requires MelhorEnvio.IsValidCep(StripNonDigits(origin))
    requires carrier(StripNonDigits(origin), store.postalCode) == MelhorEnvio.AxiosFailure(Some(401))
    ensures BuildStoreResponse(store, element, origin, carrier).value == [
      DeliveryOption("2 dias úteis", "R$ 27.00", Sedex.description, Some("Correios"), Some("04014")),
      DeliveryOption("6 dias úteis", "R$ 25.50", Pac.description, Some("Correios"), Some("04510"))]
  {
    StripNonDigitsFixesDigits(store.postalCode);
    assert StripNonDigits(DisplayPostalCode(store.postalCode)) == store.postalCode;
    MelhorEnvio.ValidCepIffEightDigits(store.postalCode);
    ShippingOptionsCases(origin, DisplayPostalCode(store.postalCode), carrier);
    DefaultShippingOptionsText();
  }

  /** A LOJA store whose carrier call times out (no HTTP status): the client
      swallows the error, so the store is listed with no option at all. */
  lemma TimedOutCarrierCase(store: Store, element: DistanceElement, origin: string,
                            carrier: (string, string) -> MelhorEnvio.HttpReply)
    requires store.kind == "LOJA" && IsCepDigits(store.postalCode)
    requires MelhorEnvio.IsValidCep(StripNonDigits(origin))
    requires carrier(StripNonDigits(origin), store.postalCode) == MelhorEnvio.AxiosFailure(None)
    ensures BuildStoreResponse(store, element, origin, carrier).value == []
  {
    StripNonDigitsFixesDigits(store.postalCode);
    assert StripNonDigits(DisplayPostalCode(store.postalCode)) == store.postalCode;
    MelhorEnvio.ValidCepIffEightDigits(store.postalCode);
    ShippingOptionsCases(origin, DisplayPostalCode(store.postalCode), carrier);
  }
}

=== FILE: text.dfy ===
/** Character and string helpers shared by the store schema and the
    quotation pipeline: the `/\D/g` digit stripping applied to postal codes,
    ASCII case mapping, ECMAScript `trim`, substring search and the decimal
    rendering of integers. */
module Text {

  /** `\d` in an ECMAScript regular expression: an ASCII digit. */
  predicate IsDigit(c: char) {
    '0' <= c <= '9'
  }

  predicate AllDigits(s: string) {
    forall i :: 0 <= i < |s| ==> IsDigit(s[i])
  }

  function Abs(v: int): nat {
    if v < 0 then -v else v
  }

  // ---------------------------------------------------------------------
  // Digit stripping
  // ---------------------------------------------------------------------

  /** `s.replace(/\D/g, '')`: the digits of `s`, in their original order. */
  function StripNonDigits(s: string): (r: string)
    ensures |r| <= |s|
    ensures AllDigits(r)
  {
    if s == [] then []
    else if IsDigit(s[0]) then [s[0]] + StripNonDigits(s[1..])
    else StripNonDigits(s[1..])
  }

  /** Stripping distributes over concatenation, so it never reorders digits. */
  lemma {:induction false} StripNonDigitsAppend(a: string, b: string)
    ensures StripNonDigits(a + b) == StripNonDigits(a) + StripNonDigits(b)
  {
    if a == [] {
      assert a + b == b;
    } else {
      assert (a + b)[0] == a[0];
      assert (a + b)[1..] == a[1..] + b;
      StripNonDigitsAppend(a[1..], b);
    }
  }

  /** Every digit occurs as often after stripping as before; nothing else
      survives. */
  lemma {:induction false} StripNonDigitsCounts(s: string, c: char)
    ensures multiset(StripNonDigits(s))[c] == if IsDigit(c) then multiset(s)[c] else 0
  {
    if s != [] {
      assert s == [s[0]] + s[1..];
      StripNonDigitsCounts(s[1..], c);
    }
  }

  /** Stripping leaves a string unchanged exactly when it is all digits. */
  lemma {:induction false} StripNonDigitsFixesDigits(s: string)
    ensures StripNonDigits(s) == s <==> AllDigits(s)
  {
    if s != [] {
      StripNonDigitsFixesDigits(s[1..]);
      if IsDigit(s[0]) {
        assert s == [s[0]] + s[1..];
        if StripNonDigits(s) == s {
          assert StripNonDigits(s[1..]) == StripNonDigits(s)[1..];
        }
      } else {
        assert |StripNonDigits(s[1..])| <= |s[1..]| < |s|;
      }
    }
  }

  /** Stripping is idempotent: a stripped code strips to itself. */
  lemma StripNonDigitsIdempotent(s: string)
    ensures StripNonDigits(StripNonDigits(s)) == StripNonDigits(s)
  {
    StripNonDigitsFixesDigits(StripNonDigits(s));
  }

  lemma StripNoDigits(s: string)
    requires forall i :: 0 <= i < |s| ==> !IsDigit(s[i])
    ensures StripNonDigits(s) == []
  {
    if s != [] {
      StripNoDigits(s[1..]);
    }
  }

  // ---------------------------------------------------------------------
  // ASCII case mapping (`toLowerCase` / `toUpperCase` on ASCII letters)
  // ---------------------------------------------------------------------

  function LowerChar(c: char): char {
    if 'A' <= c <= 'Z' then (c as int + 32) as char else c
  }

  function UpperChar(c: char): char {
    if 'a' <= c <= 'z' then (c as int - 32) as char else c
  }

  function Lower(s: string): (r: string)
    ensures |r| == |s|
    ensures forall i :: 0 <= i < |s| ==> r[i] == LowerChar(s[i])
  {
    if s == [] then [] else [LowerChar(s[0])] + Lower(s[1..])
  }

  /** Case mapping is idempotent and leaves the white-space characters
      where they are, so it keeps a trimmed text trimmed. */
  lemma LowerNormal(s: string)
    ensures Lower(Lower(s)) == Lower(s)
    ensures IsTrimmed(s) ==> IsTrimmed(Lower(s))
  {
    assert forall i :: 0 <= i < |s| ==> LowerChar(LowerChar(s[i])) == LowerChar(s[i]);
    assert forall i :: 0 <= i < |s| ==> (IsSpace(LowerChar(s[i])) <==> IsSpace(s[i]));
  }

  lemma UpperNormal(s: string)
    ensures Upper(Upper(s)) == Upper(s)
    ensures IsTrimmed(s) ==> IsTrimmed(Upper(s))
  {
    assert forall i :: 0 <= i < |s| ==> UpperChar(UpperChar(s[i])) == UpperChar(s[i]);
    assert forall i :: 0 <= i < |s| ==> (IsSpace(UpperChar(s[i])) <==> IsSpace(s[i]));
  }

  function Upper(s: string): (r: string)
    ensures |r| == |s|
    ensures forall i :: 0 <= i < |s| ==> r[i] == UpperChar(s[i])
  {
    if s == [] then [] else [UpperChar(s[0])] + Upper(s[1..])
  }

  // ---------------------------------------------------------------------
  // Substring search (`String.prototype.includes`)
  // ---------------------------------------------------------------------

  predicate StartsWith(s: string, p: string) {
    |p| <= |s| && s[..|p|] == p
  }

  predicate Contains(s: string, t: string)
    decreases |s|
  {
    StartsWith(s, t) || (|s| > 0 && Contains(s[1..], t))
  }

  /** `t` occurs in `s` starting at index `i`. */
  predicate OccursAt(s: string, t: string, i: int) {
    0 <= i <= |s| - |t| && s[i..i + |t|] == t
  }

  /** `Contains` agrees with the positional definition of an occurrence. */
  lemma {:induction false} ContainsIffOccurrence(s: string, t: string)
    ensures Contains(s, t) <==> exists i :: OccursAt(s, t, i)
    decreases |s|
  {
    if StartsWith(s, t) {
      assert OccursAt(s, t, 0);
    } else if |s| > 0 {
      ContainsIffOccurrence(s[1..], t);
      if Contains(s[1..], t) {
        var i :| OccursAt(s[1..], t, i);
        assert s[1..][i..i + |t|] == s[i + 1..i + 1 + |t|];
        assert OccursAt(s, t, i + 1);
      }
      if exists i :: OccursAt(s, t, i) {
        var i :| OccursAt(s, t, i);
        if i > 0 {
          assert s[1..][i - 1..i - 1 + |t|] == s[i..i + |t|];
          assert OccursAt(s[1..], t, i - 1);
        }
      }
    }
  }

  /** An occurrence survives lower-casing: lower-casing the haystack and the
      needle together keeps every match. */
  lemma {:induction false} ContainsLower(s: string, t: string)
    requires Contains(s, t)
    ensures Contains(Lower(s), Lower(t))
    decreases |s|
  {
    if StartsWith(s, t) {
      assert Lower(s)[..|t|] == Lower(t);
    } else {
      assert Lower(s)[1..] == Lower(s[1..]);
      ContainsLower(s[1..], t);
    }
  }

  lemma ContainsLowerImplied(s: string, t: string)
    ensures Contains(s, t) ==> Contains(Lower(s), Lower(t))
  {
    if Contains(s, t) {
      ContainsLower(s, t);
    }
  }

  lemma ContainsFirstCharImplied(s: string, t: string)
    ensures |t| > 0 && Contains(s, t) ==> t[0] in s
  {
    if |t| > 0 && Contains(s, t) {
      ContainsFirstChar(s, t);
    }
  }

  /** A non-empty needle occurs only where its first character does. */
  lemma {:induction false} ContainsFirstChar(s: string, t: string)
    requires |t| > 0 && Contains(s, t)
    ensures t[0] in s
    decreases |s|
  {
    if StartsWith(s, t) {
      assert s[0] == t[0];
    } else {
      ContainsFirstChar(s[1..], t);
      assert s == [s[0]] + s[1..];
    }
  }

  // ---------------------------------------------------------------------
  // ECMAScript `trim`
  // ---------------------------------------------------------------------

  /** The ECMAScript WhiteSpace and LineTerminator code points, which `trim`
      removes and `\s` matches. */
  const SpaceChars: set<char> := {
    '\t', '\n', '\U{000B}', '\U{000C}', '\r', ' ', '\U{00A0}', '\U{1680}',
    '\U{2000}', '\U{2001}', '\U{2002}', '\U{2003}', '\U{2004}', '\U{2005}',
    '\U{2006}', '\U{2007}', '\U{2008}', '\U{2009}', '\U{200A}',
    '\U{2028}', '\U{2029}', '\U{202F}', '\U{205F}', '\U{3000}', '\U{FEFF}'}

  predicate IsSpace(c: char) {
    c in SpaceChars
  }

  predicate AllSpace(s: string) {
    forall i :: 0 <= i < |s| ==> IsSpace(s[i])
  }

  /** `trimStart`: only white space is cut, and the result does not start
      with white space. */
  function TrimStart(s: string): (r: string)
    ensures |r| <= |s| && r == s[|s| - |r|..]
    ensures forall i :: 0 <= i < |s| - |r| ==> IsSpace(s[i])
    ensures r == [] || !IsSpace(r[0])
  {
    if s != [] && IsSpace(s[0]) then
      var r := TrimStart(s[1..]);
      SpaceRunGrowsLeft(s, |s| - |r|);
      r
    else
      s
  }

  lemma SpaceRunGrowsLeft(s: string, k: nat)
    requires 0 < k <= |s| && IsSpace(s[0])
    requires forall i :: 0 <= i < k - 1 ==> IsSpace(s[1..][i])
    ensures forall i :: 0 <= i < k ==> IsSpace(s[i])
  {
    forall i | 0 < i < k
      ensures IsSpace(s[i])
    {
      assert s[i] == s[1..][i - 1];
    }
  }

  /** `trimEnd`: only white space is cut, and the result does not end with
      white space. */
  function TrimEnd(s: string): (r: string)
    ensures |r| <= |s| && r == s[..|r|]
    ensures forall i :: |r| <= i < |s| ==> IsSpace(s[i])
    ensures r == [] || !IsSpace(r[|r| - 1])
  {
    if s != [] && IsSpace(s[|s| - 1]) then
      TrimEnd(s[..|s| - 1])
    else
      s
  }

  /** `r` is a contiguous piece of `s` with only white space before and
      after it. */
  predicate SpaceFramedSlice(s: string, r: string) {
    exists i :: 0 <= i <= |s| - |r| && r == s[i..i + |r|] && AllSpace(s[..i]) && AllSpace(s[i + |r|..])
  }

  /** `s.trim()`. */
  function Trim(s: string): (r: string)
    ensures |r| <= |s|
    ensures r == [] || (!IsSpace(r[0]) && !IsSpace(r[|r| - 1]))
    ensures SpaceFramedSlice(s, r)
  {
    var front := TrimStart(s);
    var r := TrimEnd(front);
    TrimIsSlice(s, front, r);
    TrimmedEnds(front, r);
    r
  }

  lemma TrimmedEnds(front: string, r: string)
    requires front == [] || !IsSpace(front[0])
    requires |r| <= |front| && r == front[..|r|]
    requires r == [] || !IsSpace(r[|r| - 1])
    ensures r == [] || (!IsSpace(r[0]) && !IsSpace(r[|r| - 1]))
  {
    if r != [] {
      assert r[0] == front[0];
    }
  }

  /** The two trimming passes cut a slice out of `s` with only white space
      on either side. */
  lemma TrimIsSlice(s: string, front: string, r: string)
    requires |front| <= |s| && front == s[|s| - |front|..]
    requires forall k :: 0 <= k < |s| - |front| ==> IsSpace(s[k])
    requires |r| <= |front| && r == front[..|r|]
    requires forall k :: |r| <= k < |front| ==> IsSpace(front[k])
    ensures SpaceFramedSlice(s, r)
  {
    var i := |s| - |front|;
    SliceOfSuffix(s, i, r);
    assert AllSpace(s[..i]);
    SpaceAfterSlice(s, i, |r|);
    assert 0 <= i <= |s| - |r| && r == s[i..i + |r|] && AllSpace(s[..i]) && AllSpace(s[i + |r|..]);
  }

  lemma SliceOfSuffix(s: string, i: nat, r: string)
    requires i <= |s| && |r| <= |s| - i && r == s[i..][..|r|]
    ensures r == s[i..i + |r|]
  {
  }

  lemma SpaceAfterSlice(s: string, i: nat, n: nat)
    requires i + n <= |s| && forall k :: n <= k < |s| - i ==> IsSpace(s[i..][k])
    ensures AllSpace(s[i + n..])
  {
    var tail := s[i + n..];
    forall k | 0 <= k < |tail|
      ensures IsSpace(tail[k])
    {
      assert tail[k] == s[i..][n + k];
    }
  }

  predicate IsTrimmed(s: string) {
    s == [] || (!IsSpace(s[0]) && !IsSpace(s[|s| - 1]))
  }

  /** Trimming twice is trimming once. */
  lemma TrimIdempotent(s: string)
    ensures Trim(Trim(s)) == Trim(s)
  {
    TrimOfTrimmed(Trim(s));
  }

  /** Trimming a string without outer white space changes nothing. */
  lemma TrimOfTrimmed(s: string)
    requires IsTrimmed(s)
    ensures Trim(s) == s
  {
  }

  // ---------------------------------------------------------------------
  // Decimal rendering (`${n}` and `toFixed` on exact decimals)
  // ---------------------------------------------------------------------

  function DigitChar(d: nat): (c: char)
    requires d < 10
    ensures IsDigit(c)
  {
    ('0' as int + d) as char
  }

  function DigitValue(c: char): (d: nat)
    requires IsDigit(c)
    ensures d < 10
  {
    c as int - '0' as int
  }

  /** The value of a string of decimal digits (the empty string reads 0). */
  function ParseNat(s: string): nat
    requires AllDigits(s)
  {
    if s == [] then 0 else ParseNat(s[..|s| - 1]) * 10 + DigitValue(s[|s| - 1])
  }

  /** A canonical decimal numeral: digits only, and no leading zero unless
      the numeral is "0" itself. */
  predicate IsNumeral(s: string) {
    |s| > 0 && AllDigits(s) && (s[0] == '0' ==> |s| == 1)
  }

  /** `${n}` for a non-negative integer: its shortest decimal numeral. */
  function NatToString(n: nat): (r: string)
    ensures IsNumeral(r)
    ensures ParseNat(r) == n
    decreases n
  {
    if n < 10 then [DigitChar(n)]
    else
      var prefix := NatToString(n / 10);
      var r := prefix + [DigitChar(n % 10)];
      assert r[..|r| - 1] == prefix;
      assert r[0] == prefix[0];
      ZeroLeadIsZero(prefix);
      r
  }

  /** A canonical numeral starting with '0' is "0". */
  lemma ZeroLeadIsZero(s: string)
    requires IsNumeral(s)
    ensures s[0] == '0' ==> ParseNat(s) == 0
  {
    assert s[..|s| - 1][..0] == [];
  }

  /** A numeral with a non-zero leading digit reads as at least 1. */
  lemma {:induction false} LeadingDigitPositive(s: string)
    requires |s| > 0 && AllDigits(s) && s[0] != '0'
    ensures ParseNat(s) >= 1
    decreases |s|
  {
    if |s| == 1 {
      assert s[..0] == [];
    } else {
      LeadingDigitPositive(s[..|s| - 1]);
    }
  }

  /** Round trip: every canonical numeral is the rendering of the value it
      reads as, so `NatToString` is the only canonical spelling of a number. */
  lemma {:induction false} NumeralIsCanonical(s: string)
    requires IsNumeral(s)
    ensures NatToString(ParseNat(s)) == s
    decreases |s|
  {
    if |s| == 1 {
      assert s[..0] == [];
      assert ParseNat(s) == DigitValue(s[0]);
      assert DigitChar(DigitValue(s[0])) == s[0];
    } else {
      var p := s[..|s| - 1];
      var c := s[|s| - 1];
      assert p[0] == s[0];
      LeadingDigitPositive(p);
      NumeralIsCanonical(p);
      var n := ParseNat(s);
      assert n == ParseNat(p) * 10 + DigitValue(c);
      assert n / 10 == ParseNat(p) && n % 10 == DigitValue(c);
      assert DigitChar(DigitValue(c)) == c;
      assert s == p + [c];
    }
  }

  /** `s` spells the integer with the given sign and magnitude: an optional
      minus sign followed by a canonical numeral. */
  predicate SignedNumeral(s: string, negative: bool, magnitude: nat) {
    if negative then |s| > 1 && s[0] == '-' && IsNumeral(s[1..]) && ParseNat(s[1..]) == magnitude
    else IsNumeral(s) && ParseNat(s) == magnitude
  }

  /** Text that can sit around a rendered number without changing it: no
      digit and no minus sign. */
  predicate NoAmountChars(s: string) {
    forall i :: 0 <= i < |s| ==> !IsDigit(s[i]) && s[i] != '-'
  }

  /** The number a rendered text displays: its digits read as a decimal
      numeral give the magnitude and a minus sign occurs iff it is negative. */
  predicate ShowsAmount(s: string, v: int) {
    ParseNat(StripNonDigits(s)) == Abs(v) && ('-' in s <==> v < 0)
  }

  /** `${i}` for an integer. */
  function IntToString(i: int): (r: string)
    ensures |r| > 0
  {
    var digits := NatToString(Abs(i));
    if i < 0 then "-" + digits else digits
  }

  /** `${i}` shows `i` and is its canonical spelling: a minus sign exactly
      for a negative value, then the canonical numeral of its magnitude. */
  lemma IntToStringCanonical(i: int)
    ensures ShowsAmount(IntToString(i), i)
    ensures SignedNumeral(IntToString(i), i < 0, Abs(i))
  {
    var digits := NatToString(Abs(i));
    StripNonDigitsFixesDigits(digits);
    if i < 0 {
      StripNonDigitsAppend("-", digits);
      assert IntToString(i) == "-" + digits;
      assert ("-" + digits)[1..] == digits;
    }
  }

  lemma ParseNatAppendDigit(x: string, d: char)
    requires AllDigits(x) && IsDigit(d)
    ensures AllDigits(x + [d])
    ensures ParseNat(x + [d]) == ParseNat(x) * 10 + DigitValue(d)
  {
    assert (x + [d])[..|x + [d]| - 1] == x;
  }

  lemma StripDigitsOnly(s: string)
    requires AllDigits(s)
    ensures StripNonDigits(s) == s
    ensures '-' !in s
  {
    StripNonDigitsFixesDigits(s);
  }

  /** A decimal numeral `whole.frac` strips to its digits and has no sign. */
  lemma StripDecimal(whole: string, frac: string)
    requires AllDigits(whole) && AllDigits(frac)
    ensures StripNonDigits(whole + "." + frac) == whole + frac
    ensures '-' !in whole + "." + frac
  {
    StripDecimalDigits(whole, frac);
    DecimalHasNoMinus(whole, frac);
  }

  lemma StripDecimalDigits(whole: string, frac: string)
    requires AllDigits(whole) && AllDigits(frac)
    ensures StripNonDigits(whole + "." + frac) == whole + frac
  {
    assert "." == ['.'];
    StripAroundNonDigit(whole, '.', frac);
  }

  /** One non-digit between two runs of digits is all that stripping
      removes. */
  lemma StripAroundNonDigit(a: string, c: char, b: string)
    requires AllDigits(a) && AllDigits(b) && !IsDigit(c)
    ensures StripNonDigits(a + [c] + b) == a + b
  {
    var single := [c];
    assert StripNonDigits(single) == [] by {
      assert single[1..] == [];
    }
    StripDigitsOnly(a);
    StripDigitsOnly(b);
    StripNonDigitsAppend(a, single);
    assert StripNonDigits(a + single) == a;
    StripNonDigitsAppend(a + single, b);
  }

  lemma DecimalHasNoMinus(whole: string, frac: string)
    requires AllDigits(whole) && AllDigits(frac)
    ensures '-' !in whole + "." + frac
  {
    var u := whole + "." + frac;
    forall k | 0 <= k < |u|
      ensures u[k] != '-'
    {
      if k < |whole| {
        assert u[k] == whole[k];
      } else if k > |whole| {
        assert u[k] == frac[k - |whole| - 1];
      }
    }
  }

  /** Prefixing a minus sign shows the negated amount. */
  lemma ShowsNegated(u: string, v: int)
    requires v > 0 && ShowsAmount(u, v)
    ensures ShowsAmount("-" + u, -v)
  {
    StripNonDigitsAppend("-", u);
  }

  lemma SplitHundreds(a: nat)
    ensures (a / 100 * 10 + a % 100 / 10) * 10 + a % 100 % 10 == a
  {
    var q := a / 100;
    var r := a % 100;
    assert a == 100 * q + r;
    assert r == 10 * (r / 10) + r % 10;
  }

  /** `x.toFixed(2)` for `x` = `cents` / 100. */
  function FixedTwo(cents: int): (r: string)
    ensures |r| >= 4 && r[|r| - 3] == '.'
    ensures AllDigits(r[|r| - 2..])
  {
    var unsigned := UnsignedFixedTwo(Abs(cents));
    if cents < 0 then "-" + unsigned else unsigned
  }

  /** The digits of `a` / 100 with two decimals, without a sign. */
  function UnsignedFixedTwo(a: nat): (u: string)
    ensures |u| >= 4 && u[|u| - 3] == '.'
    ensures AllDigits(u[|u| - 2..])
  {
    var whole := NatToString(a / 100);
    var d1 := DigitChar(a % 100 / 10);
    var d2 := DigitChar(a % 100 % 10);
    var u := whole + "." + [d1, d2];
    assert u[|u| - 2..] == [d1, d2];
    u
  }

  /** The unsigned two-decimal text shows `a`, and its part before the point
      is the canonical numeral of the whole units. */
  lemma UnsignedFixedTwoReads(a: nat)
    ensures ShowsAmount(UnsignedFixedTwo(a), a)
    ensures var u := UnsignedFixedTwo(a);
      IsNumeral(u[..|u| - 3]) && ParseNat(u[..|u| - 3]) == a / 100
  {
    var whole := NatToString(a / 100);
    var d1 := DigitChar(a % 100 / 10);
    var d2 := DigitChar(a % 100 % 10);
    var u := whole + "." + [d1, d2];
    assert UnsignedFixedTwo(a) == u;
    StripDecimal(whole, [d1, d2]);
    assert whole + [d1, d2] == whole + [d1] + [d2];
    ParseNatAppendDigit(whole, d1);
    ParseNatAppendDigit(whole + [d1], d2);
    SplitHundreds(a);
    assert u[..|u| - 3] == whole;
  }

  /** `toFixed(2)` shows the amount, and its part before the point is the
      canonical spelling of the whole units, signed like the amount. */
  lemma FixedTwoCanonical(cents: int)
    ensures ShowsAmount(FixedTwo(cents), cents)
    ensures SignedNumeral(FixedTwo(cents)[..|FixedTwo(cents)| - 3], cents < 0, Abs(cents) / 100)
  {
    var a := Abs(cents);
    var u := UnsignedFixedTwo(a);
    UnsignedFixedTwoReads(a);
    if cents < 0 {
      var r := "-" + u;
      assert FixedTwo(cents) == r;
      ShowsNegated(u, a);
      assert r[..|r| - 3] == "-" + u[..|u| - 3];
      assert ("-" + u[..|u| - 3])[1..] == u[..|u| - 3];
    }
  }

  /** `x.toFixed(1)` for `x` = `tenths` / 10, `tenths` >= 0. */
  function FixedOne(tenths: nat): (r: string)
    ensures |r| >= 3 && r[|r| - 2] == '.' && IsDigit(r[|r| - 1])
  {
    var whole := NatToString(tenths / 10);
    whole + "." + [DigitChar(tenths % 10)]
  }

  /** `toFixed(1)` shows the amount in tenths, and its part before the point
      is the canonical numeral of the whole units. */
  lemma FixedOneCanonical(tenths: nat)
    ensures ShowsAmount(FixedOne(tenths), tenths)
    ensures var r := FixedOne(tenths);
      IsNumeral(r[..|r| - 2]) && ParseNat(r[..|r| - 2]) == tenths / 10
  {
    var whole := NatToString(tenths / 10);
    var d := DigitChar(tenths % 10);
    var r := whole + "." + [d];
    assert FixedOne(tenths) == r;
    StripDecimal(whole, [d]);
    ParseNatAppendDigit(whole, d);
    assert r[..|r| - 2] == whole;
  }

  /** Text without digits or a minus sign around a rendered amount does not
      change the amount it shows. */
  lemma ShowsAmountFramed(prefix: string, x: string, suffix: string, v: int)
    requires ShowsAmount(x, v)
    requires NoAmountChars(prefix) && NoAmountChars(suffix)
    ensures ShowsAmount(prefix + x + suffix, v)
  {
    StripNoDigits(prefix);
    StripNoDigits(suffix);
    StripNonDigitsAppend(prefix, x);
    StripNonDigitsAppend(prefix + x, suffix);
    assert StripNonDigits(prefix + x + suffix) == StripNonDigits(x);
    var t := prefix + x + suffix;
    if '-' in x {
      var k :| 0 <= k < |x| && x[k] == '-';
      assert t[|prefix| + k] == '-';
    }
    if '-' in t {
      var k :| 0 <= k < |t| && t[k] == '-';
      assert |prefix| <= k < |prefix| + |x|;
      assert x[k - |prefix|] == '-';
    }
  }

  lemma ShowsAmountPrefixed(prefix: string, x: string, v: int)
    requires ShowsAmount(x, v) && NoAmountChars(prefix)
    ensures ShowsAmount(prefix + x, v)
  {
    ShowsAmountFramed(prefix, x, [], v);
    assert prefix + x + [] == prefix + x;
  }

  lemma ShowsAmountSuffixed(x: string, suffix: string, v: int)
    requires ShowsAmount(x, v) && NoAmountChars(suffix)
    ensures ShowsAmount(x + suffix, v)
  {
    ShowsAmountFramed([], x, suffix, v);
    assert [] + x + suffix == x + suffix;
  }

  /** The digits `toFixed(2)` writes for a non-negative amount. */
  lemma FixedTwoDigits(cents: nat)
    ensures FixedTwo(cents) == NatToString(cents / 100) + "." + [DigitChar(cents % 100 / 10), DigitChar(cents % 100 % 10)]
  {
  }

  // The two-decimal text of a few amounts, digit by digit.

  lemma FixedTwoOf1500()
    ensures FixedTwo(1500) == "15.00"
  {
    FixedTwoDigits(1500);
    assert NatToString(15) == "15" by { assert NatToString(1) == "1"; }
    assert DigitChar(0) == '0';
  }

  lemma FixedTwoOf2700()
    ensures FixedTwo(2700) == "27.00"
  {
    FixedTwoDigits(2700);
    assert NatToString(27) == "27" by { assert NatToString(2) == "2"; }
    assert DigitChar(0) == '0';
  }

  lemma FixedTwoOf2550()
    ensures FixedTwo(2550) == "25.50"
  {
    FixedTwoDigits(2550);
    assert NatToString(25) == "25" by { assert NatToString(2) == "2"; }
    assert DigitChar(5) == '5' && DigitChar(0) == '0';
  }

  lemma FixedOneOf10()
    ensures FixedOne(10) == "1.0"
  {
    assert NatToString(1) == "1";
    assert DigitChar(0) == '0';
  }
}

=== FILE: wrappers.dfy ===
/** Failure-carrying values used across the model: `Option` for the
    JavaScript `null`/`undefined` cases and `Result` for calls that either
    return a value or throw. */
module Wrappers {

  datatype Option<+T> = None | Some(value: T)

  datatype Result<+T, +E> = Success(value: T) | Failure(error: E)

  /** `xs.map(f)` for an `f` that may throw: every result in order, or the
      error of the first element that throws. */
  function MapOrThrow<A, B, E>(xs: seq<A>, f: A -> Result<B, E>): (r: Result<seq<B>, E>)
    ensures r.Failure? <==> exists i :: 0 <= i < |xs| && f(xs[i]).Failure?
    ensures r.Success? ==> |r.value| == |xs| && forall i :: 0 <= i < |xs| ==> f(xs[i]) == Success(r.value[i])
    ensures r.Failure? ==>
      exists i :: 0 <= i < |xs| && f(xs[i]) == Failure(r.error) && (forall j :: 0 <= j < i ==> f(xs[j]).Success?)
  {
    if xs == [] then Success([])
    else
      match f(xs[0])
      case Failure(e) => Failure(e)
      case Success(y) =>
        match MapOrThrow(xs[1..], f)
        case Failure(e) =>
          ghost var i :| 0 <= i < |xs[1..]| && f(xs[1..][i]) == Failure(e) &&
            (forall j :: 0 <= j < i ==> f(xs[1..][j]).Success?);
          assert f(xs[i + 1]) == Failure(e);
          assert forall j :: 1 <= j < i + 1 ==> f(xs[j]) == f(xs[1..][j - 1]);
          Failure(e)
        case Success(ys) => Success([y] + ys)
  }

  /** `xs.map(f)` with a callback that cannot throw: one result per element,
      in order. */
  function Map<A, B>(xs: seq<A>, f: A -> B): (r: seq<B>)
    ensures |r| == |xs|
    ensures forall i :: 0 <= i < |xs| ==> r[i] == f(xs[i])
  {
    if xs == [] then []
    else
      var rest := Map(xs[1..], f);
      assert forall i :: 1 <= i < |xs| ==> xs[i] == xs[1..][i - 1];
      [f(xs[0])] + rest
  }
}
